=== FILE: README.md ===
# Capacity ledger for zones and containers

This project models the admission-control core of a container-yard service in Dafny. Zones have a fixed `capacity` and a `current_load`. Containers take up capacity in the zone they are assigned to. Only two guarded updates change `current_load`:

- **reserve** adds `weight`, guarded by `capacity - current_load >= weight`;
- **release** subtracts `weight`, guarded by `current_load >= weight`.

The zone service runs three workflows over these updates: assign, create-with-optional-zone and ship. Each runs in one serializable transaction inside a bounded retry loop. The zone and container controllers validate requests before calling the service, and they also serve paginated listings.

The model is a pure state machine. A `Store` holds both tables as maps keyed by id, plus the next id each table hands out. Each workflow returns `Result<Committed, Error>`. A `Failure` carries no store: the transaction rolled back, so the caller keeps the store it had. The retry loop is a recursive function over the outcomes of successive attempts.

Modules, one per component:

- `Wrappers`: `Option` and `Result`.
- `Errors`: the thrown errors, their HTTP statuses, and the transient classification.
- `Text`: upper-casing.
- `Schema`: records, enums, and the allowed-name lists.
- `Ledger`: reserve and release.
- `Retry`: the `withRetries` loop.
- `ZoneService`: the three workflows and retry transparency.
- `Invariant`: the ledger invariant and the proofs that the workflows keep it.
- `Requests`: abstracted request values.
- `Pagination`: page arithmetic.
- `ZoneController` and `ContainerController`: the two controllers.
- `Api`: the ledger-changing endpoints together, and the reachability theorem.

The ledger invariant `Invariant.Valid` says two things:

- every zone satisfies `0 <= current_load <= capacity`;
- every zone's load equals the summed weight (`load ?? 1`) of the containers assigned to it.

`Api.NoZoneEverOvercommitted` proves that every store reachable from an empty database satisfies it. The reachable stores are those produced by zone creation, assignment, container creation (with the load check described under Findings) and shipping. Any pattern of store conflicts is allowed.

The model follows the code in three details a reader might not expect:

- A reservation against a zone that does not exist matches no row. It therefore fails with the 400 `Zone Overloaded` error, not a separate "zone not found" error (src/services/zoneService.js:52-55).
- The default statuses in `createContainerWithOptionalZone` (`LOADED` with a zone, `EMPTY` without) are modelled. However, the container controller always passes a validated status, so these defaults are never reached through HTTP.
- `ship` passes the request's status string to the store without checking it. If the string is not a value of the status enum, the store rejects the container update after the release has run. The whole transaction then rolls back. This is modelled as `Storage(InvalidEnumValue)`.

## Model

| member | source | states |
|---|---|---|
| `Retry.WithRetries` | src/services/zoneService.js:4-23 | The operation is called between 1 and `maxRetries + 1` times. Every call before the last threw a transient error. The result is the last call's outcome, unchanged. A transient error is surfaced only when the budget is exhausted. The backoff before call n+1 is 50·n ms. |
| `Retry.Continue` | src/services/zoneService.js:6-21 | The same promises for the loop after `failed` failed attempts. Attempts from `failed` onwards are retried only while transient, and the backoffs continue from 50·(failed+1). |
| `Retry.SettledFirstAttemptIsFinal` | src/services/zoneService.js:19 | A first attempt that returns, or throws a non-transient error, is the only call, and no backoff is slept. |
| `Retry.CallsStopAtFirstSettled` | src/services/zoneService.js:6-21 | The number of calls is one past the first non-retryable attempt, and that attempt's outcome is returned. |
| `Errors.HttpStatus` | src/middlewares/errorHandler.js:4 | The status is 404 exactly for a missing container. It is 500 exactly for the inconsistent-zone error and for store faults, which carry no status of their own. It is 400 for every validation and other domain error. |
| `Errors.TransientIsStoreFault` | src/services/zoneService.js:12-17 | Only store faults are transient. No error the application throws itself is ever retried. |
| `Text.ToUpper` | src/controllers/zoneController.js:71 | The result has the same length as the input, and each character is the upper-case form of the input character at the same position. It contains no lower-case letter and leaves an already upper-case string unchanged. |
| `Text.ToUpperIdempotent` | src/controllers/zoneController.js:71 | Upper-casing twice is the same as upper-casing once. |
| `Schema.ZoneTypeNamed` | src/controllers/zoneController.js:5 | A name decodes exactly when it is in the allowed zone-type list, and the decoded value's name is that name. |
| `Schema.ContainerTypeNamed` | src/controllers/containerController.js:6 | A name decodes exactly when it is in the allowed container-type list, and the decoded value's name is that name. |
| `Schema.StatusNamed` | src/controllers/containerController.js:7 | A name decodes exactly when it is in the allowed status list, and the decoded value's name is that name. |
| `Schema.EnumNamesRoundTrip` | src/controllers/containerController.js:6-7 | Decoding any enum value's name gives that value back. |
| `Ledger.Reserve` | src/services/zoneService.js:45-55 | Reserve succeeds exactly when the zone exists and has `weight` free units. On success it raises that zone's load by exactly `weight` and changes no other zone or field. With `weight >= 0` it keeps `0 <= load <= capacity`. |
| `Ledger.Release` | src/services/zoneService.js:132-141 | Release succeeds exactly when the zone exists and holds at least `weight` units. On success it lowers the load by exactly `weight` and changes nothing else. With `weight >= 0` it keeps the bounds. |
| `Ledger.ReserveReleaseRoundTrip` | src/services/zoneService.js:132-137 | Releasing what was just reserved restores every zone exactly, given a non-negative starting load. |
| `Ledger.ReleaseReserveRoundTrip` | src/services/zoneService.js:45-50 | Reserving what was just released restores every zone exactly, given a load within capacity. |
| `Ledger.SerialisedReservationsNeverOvercommit` | src/services/zoneService.js:45-55 | For serialised reservations of non-negative weights against one zone: the load grows by exactly the admitted weights and stays within capacity. Every refused request is larger than the capacity still free at the end. |
| `ZoneService.AssignContainerToZone` | src/services/zoneService.js:25-70 | Errors come in this order: a missing container (404), already in this zone (400), in another zone (400, no implicit move). An unassigned container succeeds exactly when its weight `load ?? 1` fits, and otherwise fails with the 400 `Zone Overloaded`. On success the zone's load rises by that weight, and only that container changes: its zone is set and its status becomes `LOADED`. |
| `ZoneService.CreateContainerWithOptionalZone` | src/services/zoneService.js:76-111 | Creation succeeds exactly when the zone, if one is given, has room for the weight, the type and status names are known to the store, and the number is free. Otherwise the failures come in this order: `Zone Overloaded` when there is no room, then an unknown enum name, then a duplicate number. Nothing is committed on failure. On success the new container takes the next id and carries the given zone, load, arrival and number. Its status is the given one, or `LOADED`/`EMPTY` by zone. The zone's load rises by the weight; without a zone, no zone changes. |
| `ZoneService.ShipContainer` | src/services/zoneService.js:118-156 | Shipping succeeds exactly when the container exists, is assigned, its zone holds at least its weight, and the store knows the target status. Errors: a missing container is 404, and only a missing container gives it. An unassigned container is 400. A failed release is the 500 inconsistent-state error. A releasable container with a status the store does not know fails with the store's enum error, after the release, which rolls back. On success the zone's load falls by the container's weight, and the container with the requested id is detached with status `newStatus ?? 'IN_TRANSIT'`. Nothing else changes. |
| `ZoneService.AssignThenShipRestoresZones` | src/services/zoneService.js:128-151 | Assigning a container and then shipping it returns every zone to its starting state. The container ends unassigned, with the ship status. |
| `ZoneService.RetryIsTransparent` | src/services/zoneService.js:26-28 | A retried transaction commits exactly what one uninterrupted run commits, or fails with a store fault and commits nothing. When every conflict is transient and at least one of the first four calls is not aborted, the caller gets exactly the uninterrupted result. |
| `Invariant.AssignedWeightUpdate` | src/services/zoneService.js:59-65 | Rewriting one container row changes a zone's assigned weight by exactly the difference of the old and new rows' contributions. |
| `Invariant.AssignKeepsValid` | src/services/zoneService.js:42-65 | A committed assignment keeps each zone's load within capacity and equal to the weight assigned to it. |
| `Invariant.ShipKeepsValid` | src/services/zoneService.js:128-151 | A committed shipment keeps the ledger invariant. |
| `Invariant.CreateKeepsValid` | src/services/zoneService.js:79-106 | Creating a container of non-negative weight keeps the ledger invariant. |
| `Invariant.ShipNeverInconsistent` | src/services/zoneService.js:139-141 | On a store satisfying the invariant, the 500 inconsistent-state error never occurs. |
| `Requests.ParseInt` | src/controllers/zoneController.js:8-12 | `parseIntOrThrow` gives back the integer exactly when the value is an integer, and otherwise a 400 that names the field. |
| `Pagination.ClampPage` | src/controllers/zoneController.js:16 | The page is at least 1. It equals the query value when that value is at least 1, and is 1 otherwise. |
| `Pagination.ClampLimit` | src/controllers/zoneController.js:17 | The limit is between 1 and 100. A missing or zero value gives 20. In-range values are kept, larger ones become 100, and negative ones become 1. |
| `Pagination.PageCount` | src/controllers/zoneController.js:43 | `pages = ceil(total / limit)`: no rows gives zero pages. Otherwise `(pages - 1) * limit < total <= pages * limit`. |
| `Pagination.Window` | src/controllers/zoneController.js:27-36 | `skip`/`take` return at most `take` rows, and row i of the window is row `skip + i` of the input. The window is empty past the end. |
| `Pagination.ListPage` | src/controllers/zoneController.js:16-43 | `page` and `limit` are the clamped query values, so `page >= 1` and `1 <= limit <= 100`. `total` is the number of matching rows, `pages` is its ceiling, and the data is the window at `skip = (page - 1) * limit`. |
| `Pagination.PageNonEmptyIffInRange` | src/controllers/containerController.js:19-52 | A listing's data is non-empty exactly when `page <= pages`. |
| `ZoneController.ParseZoneType` | src/controllers/zoneController.js:71-72 | A zone type is accepted exactly when its upper-cased form is one of WAREHOUSE, TRANSIT, STORAGE or OTHER, and it then denotes that type. |
| `ZoneController.ZoneTypeIgnoresCase` | src/controllers/zoneController.js:71-72 | A type name and its upper-case form are accepted or refused alike. |
| `ZoneController.OfKind` | src/controllers/zoneController.js:21-25 | The type filter returns no more rows than the table, and each row it returns is a table row of the requested type. |
| `ZoneController.OfKindCounts` | src/controllers/zoneController.js:21-25 | Each zone of the requested type is returned as often as it occurs in the table, and no other zone is returned. |
| `ZoneController.OfKindAppend` | src/controllers/zoneController.js:27-36 | The filter keeps table order: filtering a concatenation gives the concatenation of the filtered parts, so rows keep their ascending-id positions before the page is cut. |
| `ZoneController.List` | src/controllers/zoneController.js:14-47 | A listing fails exactly when a non-empty type filter is not allowed, with a 400. With an allowed filter, the listing is the page of the zones of that type. Without a filter, it is the page of all zones. |
| `ZoneController.ValidateCreate` | src/controllers/zoneController.js:64-72 | The request is accepted exactly when name, capacity and type are present, the capacity is a non-negative integer and the type is allowed. Every refusal is a 400 validation error, in this order: missing fields, then a bad capacity, then an unknown type. |
| `ZoneController.Create` | src/controllers/zoneController.js:61-85 | A valid request inserts, at the next id, the zone with the requested name, the requested capacity, the parsed type and `current_load = 0`, so the new zone is within capacity. A taken name is refused by the store. |
| `ZoneController.CreateKeepsValid` | src/controllers/zoneController.js:75-82 | Inserting a zone keeps the ledger invariant, because nothing is assigned to a new zone. |
| `ZoneController.ValidateUpdate` | src/controllers/zoneController.js:87-106 | Every refusal is a 400 validation error, in this order: a non-integer id, a body naming `current_load` (always refused), a capacity that is not a non-negative integer, then a type that is not an allowed name. An accepted patch carries exactly the given fields. |
| `ZoneController.AssignContainer` | src/controllers/zoneController.js:117-127 | A non-integer zone id, a missing container id or a non-integer container id is refused before the service is called. Otherwise the result is the retried service call. |
| `ContainerController.ParseContainerType` | src/controllers/containerController.js:79-82 | A container type is accepted exactly when its upper-cased form is one of STANDARD, REFRIGERATED, HAZARDOUS or OTHER. |
| `ContainerController.ParseStatus` | src/controllers/containerController.js:84-87 | A status is accepted exactly when its upper-cased form is one of EMPTY, LOADED, IN_TRANSIT, MAINTENANCE or OTHER. |
| `ContainerController.Filtered` | src/controllers/containerController.js:24-41 | The filter returns no more rows than the table, and each row it returns is a table row matching both the requested type and the requested status. |
| `ContainerController.FilteredCounts` | src/controllers/containerController.js:24-41 | Each matching container is returned as often as it occurs in the table, and no other container is returned. |
| `ContainerController.FilteredAppend` | src/controllers/containerController.js:43-50 | The filter keeps table order: filtering a concatenation gives the concatenation of the filtered parts. |
| `ContainerController.List` | src/controllers/containerController.js:18-55 | A listing succeeds exactly when neither a non-empty type filter nor a non-empty status filter is invalid. A bad type filter is refused before a bad status filter. Listed containers match both filters. The data is the page of the filtered rows. |
| `ContainerController.ValidateCreate` | src/controllers/containerController.js:74-106 | Every refusal is a 400 validation error, in this order: a missing number, type or status, a bad type, a bad status, a non-integer zone id, then an unparsable arrival time. The service gets the upper-cased names, the zone id, or none when absent, the parsed arrival time, or none when absent, and the load. |
| `ContainerController.Create` | src/controllers/containerController.js:74-110 | A request refused by validation never reaches the service. Otherwise the result is the retried `createContainerWithOptionalZone`. |
| `ContainerController.NegativeLoadBreaksInvariant` | src/controllers/containerController.js:106 | A store that satisfies the invariant, plus a create request with load -1 for an empty zone, commits a zone at load -1. |
| `ContainerController.CreateCommitsWhenRoom` | src/controllers/containerController.js:74-110 | A create request for a free number, naming a zone with room for its load, commits at the next id and raises that zone's load by the load, whatever the load's sign. |
| `ContainerController.ShipCommitsWhenReleasable` | src/controllers/containerController.js:159-164 | A ship request without a status, for an assigned container whose zone holds at least its weight, commits and lowers that zone's load by the weight, whatever its sign. |
| `ContainerController.NegativeLoadOvercommitsZone` | src/controllers/containerController.js:106 | In a zone of capacity 10, creating a container of load -5, then one of load 15, then shipping the first leaves the zone at load 15, above its capacity. |
| `ContainerController.CreateChecked` | src/controllers/containerController.js:74-110 | Like `Create`, but a negative load is refused with a 400, so every committed container has a non-negative weight. |
| `ContainerController.CreateCheckedKeepsValid` | src/services/zoneService.js:79-106 | A committed checked create keeps the ledger invariant. |
| `ContainerController.ValidateUpdate` | src/controllers/containerController.js:113-145 | Every present field is checked, and every refusal is a 400 validation error, in this order: a non-integer id, an unparsable date, a bad type, a bad status, then a zone id that is neither null nor an integer. An accepted patch carries the parsed arrival, type, status and load of exactly the fields present. An integer zone id is carried as that id, and a null zone id means detach. |
| `ContainerController.ShipStatus` | src/controllers/containerController.js:161 | The target status is the body's status unless it is missing or empty, in which case it is `IN_TRANSIT`. |
| `ContainerController.Ship` | src/controllers/containerController.js:159-164 | A non-integer id is refused. Otherwise the result is the retried `shipContainer` with the defaulted status. |
| `Api.HandleKeepsValid` | src/services/zoneService.js:25-156 | Serving any zone-creation, assign, checked-create or ship request keeps the ledger invariant, whatever conflicts the store raises. |
| `Api.ServeKeepsValid` | src/services/zoneService.js:25-156 | Serving any sequence of such requests keeps the invariant, so every zone stays within `0 <= current_load <= capacity`. |
| `Api.NoZoneEverOvercommitted` | src/services/zoneService.js:44-55 | With the checked container create in place of the one as written, no sequence of requests starting from an empty database overcommits a zone or drives its load below 0. The create as written breaks this (see Findings). |

## Findings

| source | as written | input that shows it | evidently intended | confidence | as-written member | corrected member |
|---|---|---|---|---|---|---|
| src/controllers/containerController.js:106 | `load` is forwarded as `Number(load)` with no sign check, and `reserve` adds any weight that passes `capacity - current_load >= weight` | zone capacity 10, load 0; `POST /containers` with that `zoneId`, type `standard`, status `loaded`, `load: -1` → zone load becomes -1. Also: create A with `load: -5` (load -5), create B with `load: 15` (the guard 10 - (-5) >= 15 holds; load 10), then call the ship handler directly for A, since no route reaches it (the guard 10 >= -5 holds) → zone load 15 with capacity 10 | a container's load is a non-negative amount of capacity, so `0 <= current_load <= capacity` always holds | medium; not executed | `ContainerController.Create` (counterexamples `ContainerController.NegativeLoadBreaksInvariant` and `ContainerController.NegativeLoadOvercommitsZone`) | `ContainerController.CreateChecked` (proved by `ContainerController.CreateCheckedKeepsValid`, used by `Api.Handle`) |

## Left out

- Prisma, the raw SQL, transactions and isolation levels are left out. Each workflow is atomic: a failure returns no store.
- Concurrency is left out; the model is sequential. Store conflicts are a parameter, `conflicts`, listing which attempts the store aborts. Between attempts the store is not changed by other transactions.
- The `setTimeout` sleep is left out. Only the backoff values `50 * attempt` are recorded.
- The matching of error-message text is left out. The four transient signatures are four `Fault` kinds.
- JavaScript `Number()` coercion is abstracted as `Numeric`: an integer, or not an integer. This covers quirks such as `Number(null) = 0`. Non-integer pages, limits and loads are not modelled.
- `Math.ceil` on floating point is modelled as exact integer ceiling.
- The range of integers is left out: numbers are unbounded. The controllers accept any integral double as an integer (src/controllers/zoneController.js:68-69, 97-98), and the container controller forwards any numeric load (src/controllers/containerController.js:106). The store's integer columns are bounded, so it refuses an out-of-range value such as a capacity of 1e20 that the controller accepted. `ZoneController.Create` commits such a value, and no range error is modelled. The prisma schema is not part of this model.
- Ids are dense: a failed insert does not advance the next id. The database's autoincrement sequence also spends a value on an insert that is rolled back, for example a duplicate zone name (src/controllers/zoneController.js:75), a duplicate container number (src/services/zoneService.js:97) or a transient abort after the insert. So the model's ids are one choice of fresh id; the program may skip values. The invariant only needs ids to be fresh, not dense.
- `Text.ToUpper` upper-cases ASCII letters only. JavaScript's `toUpperCase` also maps some other characters onto ASCII letters (for example `ı` to `I`).
- Date parsing is abstracted as `DateInput`: a timestamp, or unparsable.
- Applying a zone update is not modelled, only its validation. That path can lower `capacity` below `current_load` (src/controllers/zoneController.js:96-100).
- Applying a container update is not modelled, only its validation. That path can change the `zoneId` or `load` of an assigned container without going through the ledger (src/controllers/containerController.js:135-145).
- `getById` in both controllers is left out: it is a plain read with a 404.
- Express routing, `app.js` and `zoneRepo.js` are not part of this model. No route is registered for ship (src/routes/index.js:14-20), but the handler is modelled.
- `prisma/seed.js` is I/O. It also inserts assigned containers while leaving the zones' load at 0, so it would not satisfy the load-equals-sum invariant.
- `ZoneController.List`: the listing's rows are taken as a parameter, the zone table in ascending id order. The included containers are not modelled.
- `ContainerController.List`: the listing's rows are taken as a parameter, the container table in ascending id order. The included zone is not modelled.
- `Retry.WithRetries`: the attempt outcomes are a finite sequence that must cover every call the loop can make (`maxRetries + 1` of them).

=== FILE: api.dfy ===
/** The endpoints that touch the ledger, taken together: every store they can
    reach from an empty database satisfies the ledger invariant. */
module Api {
  import opened Wrappers
  import opened Errors
  import opened Schema
  import opened Ledger
  import opened ZoneService
  import opened Invariant
  import ZoneController
  import ContainerController

  /** A request to one of the endpoints that insert zones or move capacity. */
  datatype Call =
    | ZoneCreation(zone: ZoneController.CreateRequest)
    | Assignment(assign: ZoneController.AssignRequest)
    | ContainerCreation(container: ContainerController.CreateRequest)
    | Shipment(ship: ContainerController.ShipRequest)

  /** The store after serving `call`, with the store aborting the attempts
      listed in `conflicts`; a failed call leaves the store as it was. */
  function Handle(s: Store, call: Call, conflicts: seq<Option<Fault>>): Store {
    match call
    case ZoneCreation(req) =>
      var r := ZoneController.Create(s, req);
      if r.Success? then r.value.store else s
    case Assignment(req) => After(s, ZoneController.AssignContainer(s, req, conflicts))
    case ContainerCreation(req) => After(s, ContainerController.CreateChecked(s, req, conflicts))
    case Shipment(req) => After(s, ContainerController.Ship(s, req, conflicts))
  }

  /** Serving any call keeps the ledger invariant. */
  lemma HandleKeepsValid(s: Store, call: Call, conflicts: seq<Option<Fault>>)
    requires Valid(s)
    ensures Valid(Handle(s, call, conflicts))
  {
    match call
    case ZoneCreation(req) =>
      if ZoneController.Create(s, req).Success? {
        ZoneController.CreateKeepsValid(s, req);
      }
    case Assignment(req) =>
      var r := ZoneController.AssignContainer(s, req, conflicts);
      if r.Success? {
        var run := AssignContainerToZone(s, req.zoneId.value, req.containerId.value.value);
        RetryIsTransparent(run, conflicts);
        AssignKeepsValid(s, req.zoneId.value, req.containerId.value.value);
      }
    case ContainerCreation(req) =>
      if ContainerController.CreateChecked(s, req, conflicts).Success? {
        ContainerController.CreateCheckedKeepsValid(s, req, conflicts);
      }
    case Shipment(req) =>
      var r := ContainerController.Ship(s, req, conflicts);
      if r.Success? {
        var status := Some(ContainerController.ShipStatus(req.status));
        RetryIsTransparent(ShipContainer(s, req.id.value, status), conflicts);
        ShipKeepsValid(s, req.id.value, status);
      }
  }

  /** One served call and the conflicts its attempts ran into. */
  datatype Served = Served(call: Call, conflicts: seq<Option<Fault>>)

  /** The store after serving `calls` in order, starting from `s`. */
  function Serve(s: Store, calls: seq<Served>): Store
    decreases |calls|
  {
    if calls == [] then s
    else Serve(Handle(s, calls[0].call, calls[0].conflicts), calls[1..])
  }

  /** Every store reachable through the endpoints satisfies the invariant; in
      particular every zone's load stays between 0 and its capacity. */
  lemma {:induction false} ServeKeepsValid(s: Store, calls: seq<Served>)
    requires Valid(s)
    ensures Valid(Serve(s, calls))
    ensures forall id :: id in Serve(s, calls).zones ==> WithinCapacity(Serve(s, calls).zones[id])
    decreases |calls|
  {
    if calls != [] {
      HandleKeepsValid(s, calls[0].call, calls[0].conflicts);
      ServeKeepsValid(Handle(s, calls[0].call, calls[0].conflicts), calls[1..]);
    }
  }

  /** From an empty database, no sequence of calls overcommits a zone. */
  lemma NoZoneEverOvercommitted(calls: seq<Served>)
    ensures forall id :: id in Serve(EmptyStore, calls).zones ==> WithinCapacity(Serve(EmptyStore, calls).zones[id])
  {
    EmptyStoreIsValid();
    ServeKeepsValid(EmptyStore, calls);
  }
}

=== FILE: container_controller.dfy ===
/** The container controller: listing, creation and update validation, and
    the ship endpoint. Creation and shipping hand over to the zone service. */
module ContainerController {
  import opened Wrappers
  import opened Errors
  import opened Schema
  import opened Text
  import opened Requests
  import opened Pagination
  import opened Ledger
  import opened ZoneService
  import opened Invariant

  /** A container type as a request spells it, matched case-insensitively. */
  function ParseContainerType(raw: string): (r: Option<ContainerType>)
    ensures r.Some? <==> ToUpper(raw) in AllowedContainerTypes
    ensures forall t :: r == Some(t) <==> ToUpper(raw) == ContainerTypeName(t)
  {
    ContainerTypeNamed(ToUpper(raw))
  }

  /** A container status as a request spells it, matched case-insensitively. */
  function ParseStatus(raw: string): (r: Option<ContainerStatus>)
    ensures r.Some? <==> ToUpper(raw) in AllowedContainerStatuses
    ensures forall t :: r == Some(t) <==> ToUpper(raw) == StatusName(t)
  {
    StatusNamed(ToUpper(raw))
  }

  /** The query of `GET /containers`. */
  datatype ListQuery = ListQuery(page: Option<int>, limit: Option<int>, kind: Option<string>, status: Option<string>)

  /** The filter the listing applies; None leaves that field unfiltered. */
  predicate Matches(c: Container, kind: Option<ContainerType>, status: Option<ContainerStatus>) {
    (kind.None? || c.kind == kind.value) && (status.None? || c.status == status.value)
  }

  /** The containers matching the filter, in table order. */
  function Filtered(rows: seq<Container>, kind: Option<ContainerType>, status: Option<ContainerStatus>): (r: seq<Container>)
    ensures |r| <= |rows|
    ensures forall i :: 0 <= i < |r| ==> r[i] in rows && Matches(r[i], kind, status)
  {
    if rows == [] then []
    else (if Matches(rows[0], kind, status) then [rows[0]] else []) + Filtered(rows[1..], kind, status)
  }

  /** The filter keeps every matching container as often as it occurs in the
      table, and no other container. */
  lemma {:induction false} FilteredCounts(rows: seq<Container>, kind: Option<ContainerType>, status: Option<ContainerStatus>)
    ensures forall c :: multiset(Filtered(rows, kind, status))[c] == if Matches(c, kind, status) then multiset(rows)[c] else 0
  {
    if rows != [] {
      assert rows == [rows[0]] + rows[1..];
      FilteredCounts(rows[1..], kind, status);
    }
  }

  /** The filter keeps the table order: the filter of a concatenation is the
      concatenation of the filters. */
  lemma {:induction false} FilteredAppend(a: seq<Container>, b: seq<Container>, kind: Option<ContainerType>, status: Option<ContainerStatus>)
    ensures Filtered(a + b, kind, status) == Filtered(a, kind, status) + Filtered(b, kind, status)
  {
    if a == [] {
      assert a + b == b;
    } else {
      var head := if Matches(a[0], kind, status) then [a[0]] else [];
      assert (a + b)[0] == a[0];
      assert (a + b)[1..] == a[1..] + b;
      calc {
        Filtered(a + b, kind, status);
        head + Filtered(a[1..] + b, kind, status);
        { FilteredAppend(a[1..], b, kind, status); }
        head + (Filtered(a[1..], kind, status) + Filtered(b, kind, status));
        (head + Filtered(a[1..], kind, status)) + Filtered(b, kind, status);
      }
    }
  }

  /** One page of containers; `rows` is the container table in ascending id
      order. The type filter is checked before the status filter; each is
      applied only when the query gives a non-empty value. */
  function List(rows: seq<Container>, q: ListQuery): (r: Result<Listing<Container>, Error>)
    ensures r.Success? <==>
      && !(Truthy(q.kind) && ParseContainerType(q.kind.value).None?)
      && !(Truthy(q.status) && ParseStatus(q.status.value).None?)
    ensures Truthy(q.kind) && ParseContainerType(q.kind.value).None? ==> r == Failure(InvalidContainerType)
    ensures (!Truthy(q.kind) || ParseContainerType(q.kind.value).Some?)
            && Truthy(q.status) && ParseStatus(q.status.value).None?
      ==> r == Failure(InvalidStatus)
    ensures r.Success? ==>
              var kind := if Truthy(q.kind) then ParseContainerType(q.kind.value) else None;
              var status := if Truthy(q.status) then ParseStatus(q.status.value) else None;
              && (forall i :: 0 <= i < |r.value.data| ==> Matches(r.value.data[i], kind, status))
              && r.value == ListPage(Filtered(rows, kind, status), q.page, q.limit)
  {
    if Truthy(q.kind) && ParseContainerType(q.kind.value).None? then Failure(InvalidContainerType)
    else if Truthy(q.status) && ParseStatus(q.status.value).None? then Failure(InvalidStatus)
    else
      var kind := if Truthy(q.kind) then ParseContainerType(q.kind.value) else None;
      var status := if Truthy(q.status) then ParseStatus(q.status.value) else None;
      var matching := Filtered(rows, kind, status);
      var r := ListPage(matching, q.page, q.limit);
      assert forall i :: 0 <= i < |r.data| ==> r.data[i] == matching[Skip(r.meta.page, r.meta.limit) + i];
      Success(r)
  }

  /** The body of `POST /containers`. `load` is the numeric value of the
      body's load when one is given. */
  datatype CreateRequest = CreateRequest(
    number: Option<string>,
    kind: Option<string>,
    status: Option<string>,
    zoneId: Option<Numeric>,
    arrival: Option<DateInput>,
    load: Option<int>)

  predicate HasRequired(req: CreateRequest) {
    Truthy(req.number) && Truthy(req.kind) && Truthy(req.status)
  }

  /** Number, type and status are required, type and status must be allowed
      names, a zone id must be an integer and an arrival time a valid date.
      The service receives the upper-cased names. */
  function ValidateCreate(req: CreateRequest): (r: Result<NewContainer, Error>)
    ensures !HasRequired(req) ==> r == Failure(Missing("number, type and status"))
    ensures HasRequired(req) && ParseContainerType(req.kind.value).None? ==> r == Failure(InvalidContainerType)
    ensures (HasRequired(req) && ParseContainerType(req.kind.value).Some? && ParseStatus(req.status.value).None?)
      ==> r == Failure(InvalidStatus)
    ensures (HasRequired(req) && ParseContainerType(req.kind.value).Some? && ParseStatus(req.status.value).Some?
             && req.zoneId == Some(NotInteger))
      ==> r == Failure(NotAnInteger("zoneId"))
    ensures (HasRequired(req) && ParseContainerType(req.kind.value).Some? && ParseStatus(req.status.value).Some?
             && (req.zoneId.Some? ==> req.zoneId.value.Integer?) && req.arrival == Some(Unparsable))
      ==> r == Failure(InvalidDate)
    ensures r.Failure? ==> IsValidationError(r.error)
    ensures r.Success? <==>
      && HasRequired(req)
      && ParseContainerType(req.kind.value).Some?
      && ParseStatus(req.status.value).Some?
      && (req.zoneId.Some? ==> req.zoneId.value.Integer?)
      && (req.arrival.Some? ==> req.arrival.value.Timestamp?)
    ensures r.Success? ==>
      && r.value.number == req.number.value
      && r.value.kind == ToUpper(req.kind.value)
      && r.value.status == Some(ToUpper(req.status.value))
      && (r.value.zoneId.Some? <==> req.zoneId.Some?)
      && (req.zoneId.Some? ==> r.value.zoneId.value == req.zoneId.value.value)
      && (req.arrival.Some? ==> r.value.arrival == Some(req.arrival.value.millis))
      && (req.arrival.None? ==> r.value.arrival.None?)
      && r.value.load == req.load
  {
    if !HasRequired(req) then Failure(Missing("number, type and status"))
    else
      match (ParseContainerType(req.kind.value), ParseStatus(req.status.value))
      case (None, _) => Failure(InvalidContainerType)
      case (_, None) => Failure(InvalidStatus)
      case (Some(kind), Some(status)) =>
        var zoneId :- if req.zoneId.None? then Success(None)
                      else match ParseInt(req.zoneId.value, "zoneId")
                        case Success(n) => Success(Some(n))
                        case Failure(e) => Failure(e);
        if req.arrival.Some? && req.arrival.value.Unparsable? then Failure(InvalidDate)
        else
          var arrival := if req.arrival.Some? then Some(req.arrival.value.millis) else None;
          Success(NewContainer(req.number.value, ContainerTypeName(kind), Some(StatusName(status)), zoneId, arrival, req.load))
  }

  /** `POST /containers` as written: the load is forwarded whatever its sign. */
  function Create(s: Store, req: CreateRequest, conflicts: seq<Option<Fault>>): (r: Result<Committed, Error>)
    ensures ValidateCreate(req).Failure? ==> r == Failure(ValidateCreate(req).error)
    ensures ValidateCreate(req).Success? ==>
              r == Transact(CreateContainerWithOptionalZone(s, ValidateCreate(req).value), conflicts)
  {
    var data :- ValidateCreate(req);
    Transact(CreateContainerWithOptionalZone(s, data), conflicts)
  }

  /** As written, a negative load reaches the ledger as a negative weight: a
      zone with no load that takes a container of load -1 ends at load -1. */
  lemma NegativeLoadBreaksInvariant()
    ensures var zone := Zone("Zone A", 10, 0, Warehouse);
      var s := Store(map[1 := zone], map[], 2, 1);
      var req := CreateRequest(Some("C-100"), Some("standard"), Some("loaded"), Some(Integer(1)), None, Some(-1));
      var r := Create(s, req, []);
      && Valid(s)
      && r.Success?
      && r.value.store.zones[1].currentLoad == -1
      && !WithinCapacity(r.value.store.zones[1])
      && !Valid(r.value.store)
  {
  }

  /** A create request for a free number, naming a zone with room for its
      load, commits whatever the sign of the load. */
  lemma CreateCommitsWhenRoom(s: Store, number: string, zoneId: int, load: int)
    requires number != ""
    requires CanReserve(s.zones, zoneId, load)
    requires !NumberTaken(s.containers, number)
    ensures var r := Create(s, CreateRequest(Some(number), Some("STANDARD"), Some("LOADED"), Some(Integer(zoneId)), None, Some(load)), []);
      && r.Success?
      && r.value.containerId == s.nextContainerId
      && r.value.store.containers == s.containers[s.nextContainerId := r.value.container]
      && r.value.container.number == number
      && r.value.container.zoneId == Some(zoneId)
      && r.value.container.load == Some(load)
      && SameZonesExcept(s.zones, r.value.store.zones, zoneId)
      && r.value.store.zones[zoneId] == s.zones[zoneId].(currentLoad := s.zones[zoneId].currentLoad + load)
      && r.value.store.nextContainerId == s.nextContainerId + 1
  {
    var req := CreateRequest(Some(number), Some("STANDARD"), Some("LOADED"), Some(Integer(zoneId)), None, Some(load));
    var data := NewContainer(number, "STANDARD", Some("LOADED"), Some(zoneId), None, Some(load));
    assert ValidateCreate(req) == Success(data) by {
      assert IsUpper("STANDARD") && IsUpper("LOADED");
    }
    var run := CreateContainerWithOptionalZone(s, data);
    assert run.Success? by {
      assert Reservable(s, data) && NamesDecode(data);
    }
    RetryIsTransparent(run, []);
    assert Create(s, req, []) == run;
  }

  /** A ship request for an assigned container whose zone holds its weight
      commits, releasing that weight whatever its sign. */
  lemma ShipCommitsWhenReleasable(s: Store, id: int)
    requires id in s.containers && s.containers[id].zoneId.Some?
    requires CanRelease(s.zones, s.containers[id].zoneId.value, Weight(s.containers[id]))
    ensures var zoneId := s.containers[id].zoneId.value;
      var r := Ship(s, ShipRequest(Integer(id), None), []);
      && r.Success?
      && r.value.store.zones[zoneId] == s.zones[zoneId].(currentLoad := s.zones[zoneId].currentLoad - Weight(s.containers[id]))
  {
    RetryIsTransparent(ShipContainer(s, id, Some(DefaultShipStatus)), []);
  }

  /** As written, a negative load also lets a zone be overcommitted. In a zone
      of capacity 10, a container of load -5 leaves room for one of load 15;
      shipping the first then releases -5 units and leaves the zone at 15. */
  lemma NegativeLoadOvercommitsZone()
    ensures var s0 := Store(map[1 := Zone("Zone A", 10, 0, Warehouse)], map[], 2, 1);
      var a := CreateRequest(Some("C-A"), Some("STANDARD"), Some("LOADED"), Some(Integer(1)), None, Some(-5));
      var b := CreateRequest(Some("C-B"), Some("STANDARD"), Some("LOADED"), Some(Integer(1)), None, Some(15));
      var r1 := Create(s0, a, []);
      && Valid(s0)
      && r1.Success? && r1.value.containerId == 1 && r1.value.store.zones[1].currentLoad == -5
      && var r2 := Create(r1.value.store, b, []);
      && r2.Success? && r2.value.store.zones[1].currentLoad == 10
      && var r3 := Ship(r2.value.store, ShipRequest(Integer(1), None), []);
      && r3.Success?
      && r3.value.store.zones[1].currentLoad == 15
      && r3.value.store.zones[1].capacity == 10
  {
    var s0 := Store(map[1 := Zone("Zone A", 10, 0, Warehouse)], map[], 2, 1);
    CreateCommitsWhenRoom(s0, "C-A", 1, -5);
    var s1 := Create(s0, CreateRequest(Some("C-A"), Some("STANDARD"), Some("LOADED"), Some(Integer(1)), None, Some(-5)), []).value.store;
    assert s1.containers.Keys == {1} && s1.containers[1].number == "C-A";
    CreateCommitsWhenRoom(s1, "C-B", 1, 15);
    var s2 := Create(s1, CreateRequest(Some("C-B"), Some("STANDARD"), Some("LOADED"), Some(Integer(1)), None, Some(15)), []).value.store;
    assert s2.containers[1] == s1.containers[1];
    ShipCommitsWhenReleasable(s2, 1);
  }

  /** `POST /containers` with the load checked like a zone capacity: a
      negative load is refused before the service is called. */
  function CreateChecked(s: Store, req: CreateRequest, conflicts: seq<Option<Fault>>): (r: Result<Committed, Error>)
    ensures ValidateCreate(req).Failure? ==> r == Failure(ValidateCreate(req).error)
    ensures (ValidateCreate(req).Success? && req.load.Some? && req.load.value < 0)
      ==> r == Failure(NotNonNegativeInteger("load"))
    ensures r.Success? ==> 0 <= NewWeight(ValidateCreate(req).value)
    ensures ValidateCreate(req).Success? && (req.load.None? || 0 <= req.load.value) ==>
              r == Transact(CreateContainerWithOptionalZone(s, ValidateCreate(req).value), conflicts)
  {
    var data :- ValidateCreate(req);
    if req.load.Some? && req.load.value < 0 then Failure(NotNonNegativeInteger("load"))
    else Transact(CreateContainerWithOptionalZone(s, data), conflicts)
  }

  /** With the load checked, creating a container keeps the ledger invariant. */
  lemma CreateCheckedKeepsValid(s: Store, req: CreateRequest, conflicts: seq<Option<Fault>>)
    requires Valid(s)
    requires CreateChecked(s, req, conflicts).Success?
    ensures Valid(CreateChecked(s, req, conflicts).value.store)
  {
    var data := ValidateCreate(req).value;
    var run := CreateContainerWithOptionalZone(s, data);
    RetryIsTransparent(run, conflicts);
    CreateKeepsValid(s, data);
  }

  /** The body of `PATCH /containers/:id`, with the id from the path. A present
      `zoneId` is either null (detach) or a number. */
  datatype UpdateRequest = UpdateRequest(
    id: Numeric,
    arrival: Option<DateInput>,
    kind: Option<string>,
    status: Option<string>,
    zoneId: Option<Option<Numeric>>,
    load: Option<int>)

  /** The fields an accepted update writes; `zoneId` is Some(None) for a detach. */
  datatype ContainerPatch = ContainerPatch(
    id: int,
    arrival: Option<int>,
    kind: Option<ContainerType>,
    status: Option<ContainerStatus>,
    zoneId: Option<Option<int>>,
    load: Option<int>)

  /** Every field that is present is checked: a valid date, an allowed type,
      an allowed status, and a zone id that is null or an integer. */
  function ValidateUpdate(req: UpdateRequest): (r: Result<ContainerPatch, Error>)
    ensures r.Success? <==>
      && req.id.Integer?
      && (req.arrival.Some? ==> req.arrival.value.Timestamp?)
      && (req.kind.Some? ==> ParseContainerType(req.kind.value).Some?)
      && (req.status.Some? ==> ParseStatus(req.status.value).Some?)
      && (req.zoneId.Some? && req.zoneId.value.Some? ==> req.zoneId.value.value.Integer?)
    ensures req.id.NotInteger? ==> r == Failure(NotAnInteger("id"))
    ensures req.id.Integer? && req.arrival == Some(Unparsable) ==> r == Failure(InvalidDate)
    ensures (req.id.Integer? && (req.arrival.Some? ==> req.arrival.value.Timestamp?)
             && req.kind.Some? && ParseContainerType(req.kind.value).None?)
      ==> r == Failure(InvalidContainerType)
    ensures (req.id.Integer? && (req.arrival.Some? ==> req.arrival.value.Timestamp?)
             && (req.kind.Some? ==> ParseContainerType(req.kind.value).Some?)
             && (req.status.Some? ==> ParseStatus(req.status.value).Some?)
             && req.zoneId == Some(Some(NotInteger)))
      ==> r == Failure(NotAnInteger("zoneId"))
    ensures r.Failure? ==> IsValidationError(r.error)
    ensures r.Failure? && req.id.Integer? && (req.arrival.Some? ==> req.arrival.value.Timestamp?)
            && (req.kind.Some? ==> ParseContainerType(req.kind.value).Some?)
            && req.status.Some? && ParseStatus(req.status.value).None?
      ==> r.error == InvalidStatus
    ensures r.Success? ==>
      && r.value.id == req.id.value
      && (req.arrival.Some? ==> r.value.arrival == Some(req.arrival.value.millis))
      && (req.arrival.None? ==> r.value.arrival.None?)
      && (req.kind.Some? ==> r.value.kind == ParseContainerType(req.kind.value))
      && (req.kind.None? ==> r.value.kind.None?)
      && (req.status.Some? ==> r.value.status == ParseStatus(req.status.value))
      && (req.status.None? ==> r.value.status.None?)
      && (req.zoneId.None? ==> r.value.zoneId.None?)
      && (req.zoneId == Some(None) ==> r.value.zoneId == Some(None))
      && (req.zoneId.Some? && req.zoneId.value.Some? ==> r.value.zoneId == Some(Some(req.zoneId.value.value.value)))
      && r.value.load == req.load
  {
    var id :- ParseInt(req.id, "id");
    if req.arrival.Some? && req.arrival.value.Unparsable? then Failure(InvalidDate)
    else if req.kind.Some? && ParseContainerType(req.kind.value).None? then Failure(InvalidContainerType)
    else if req.status.Some? && ParseStatus(req.status.value).None? then Failure(InvalidStatus)
    else if req.zoneId.Some? && req.zoneId.value.Some? && req.zoneId.value.value.NotInteger? then
      Failure(NotAnInteger("zoneId"))
    else
      var arrival := if req.arrival.Some? then Some(req.arrival.value.millis) else None;
      var kind := if req.kind.Some? then ParseContainerType(req.kind.value) else None;
      var status := if req.status.Some? then ParseStatus(req.status.value) else None;
      var zoneId: Option<Option<int>> :=
        if req.zoneId.None? then None
        else if req.zoneId.value.None? then Some(None)
        else Some(Some(req.zoneId.value.value.value));
      Success(ContainerPatch(id, arrival, kind, status, zoneId, req.load))
  }

  /** The body of `POST /containers/:id/ship`, with the id from the path. */
  datatype ShipRequest = ShipRequest(id: Numeric, status: Option<string>)

  /** The status to ship with: the body's status unless it is missing or
      empty, and `IN_TRANSIT` then. It is passed on as given, without upper-casing. */
  function ShipStatus(status: Option<string>): (r: string)
    ensures Truthy(status) ==> r == status.value
    ensures !Truthy(status) ==> r == DefaultShipStatus
    ensures r != ""
  {
    if Truthy(status) then status.value else DefaultShipStatus
  }

  /** `POST /containers/:id/ship`: the id must be an integer; the service call
      runs under the retry wrapper. */
  function Ship(s: Store, req: ShipRequest, conflicts: seq<Option<Fault>>): (r: Result<Committed, Error>)
    ensures req.id.NotInteger? ==> r == Failure(NotAnInteger("id"))
    ensures req.id.Integer? ==> r == Transact(ShipContainer(s, req.id.value, Some(ShipStatus(req.status))), conflicts)
  {
    var id :- ParseInt(req.id, "id");
    Transact(ShipContainer(s, id, Some(ShipStatus(req.status))), conflicts)
  }
}

=== FILE: errors.dfy ===
/** The errors the controllers and the zone service throw, and how the retry
    wrapper classifies them. */
module Errors {

  /** Failures reported by the relational store rather than by the application. */
  datatype Fault =
    | SerializationFailure   // a serializable transaction lost a conflict
    | DeadlockDetected       // the store broke a deadlock by aborting this transaction
    | StatementCanceled      // the store cancelled the statement
    | LockNotAvailable       // a row lock could not be taken
    | UniqueViolation        // a second zone name or container number
    | InvalidEnumValue       // a string that is not a value of the schema's enum

  /** The four fault kinds whose messages the retry wrapper recognises as transient. */
  predicate IsTransientFault(f: Fault) {
    f.SerializationFailure? || f.DeadlockDetected? || f.StatementCanceled? || f.LockNotAvailable?
  }

  datatype Error =
    // request validation in the controllers (status 400)
    | Missing(fields: string)
    | NotAnInteger(field: string)
    | NotNonNegativeInteger(field: string)
    | InvalidZoneType
    | InvalidContainerType
    | InvalidStatus
    | InvalidDate
    | LoadIsReadOnly
    // domain errors thrown inside the zone service's transactions
    | ContainerNotFound                // 404
    | AlreadyInZone                    // 400, already assigned to this zone
    | AssignedElsewhere                // 400, no implicit move
    | ZoneOverloaded                   // 400, reservation predicate failed
    | NotAssigned                      // 400, nothing to ship from
    | ZoneInconsistent                 // 500, release predicate failed
    // errors raised by the store itself; they carry no status of their own
    | Storage(fault: Fault)

  /** Only store faults of a transient kind are retried; every thrown domain
      error is rethrown at once. */
  predicate IsTransient(e: Error) {
    e.Storage? && IsTransientFault(e.fault)
  }

  predicate IsValidationError(e: Error) {
    e.Missing? || e.NotAnInteger? || e.NotNonNegativeInteger? || e.InvalidZoneType?
    || e.InvalidContainerType? || e.InvalidStatus? || e.InvalidDate? || e.LoadIsReadOnly?
  }

  /** The HTTP status the error handler answers with: the thrown object's own
      status, or 500 for errors that carry none. */
  function HttpStatus(e: Error): (r: int)
    ensures r == 404 <==> e.ContainerNotFound?
    ensures r == 500 <==> e.ZoneInconsistent? || e.Storage?
    ensures r == 400 <==> IsValidationError(e) || e.AlreadyInZone? || e.AssignedElsewhere?
                          || e.ZoneOverloaded? || e.NotAssigned?
  {
    match e
    case ContainerNotFound => 404
    case ZoneInconsistent => 500
    case Storage(_) => 500
    case _ => 400
  }

  /** A transient error is never one of the application's own errors. */
  lemma TransientIsStoreFault(e: Error)
    requires IsTransient(e)
    ensures HttpStatus(e) == 500 && !IsValidationError(e)
  {
  }
}

=== FILE: invariant.dfy ===
/** The ledger invariant: every zone's load stays within its capacity and
    equals the summed weight of the containers assigned to it, and the
    service's workflows keep it. */
module Invariant {
  import opened Wrappers
  import opened Errors
  import opened Schema
  import opened Ledger
  import opened ZoneService

  /** What container `c` adds to the load of zone `zoneId`. */
  function Contribution(c: Container, zoneId: int): int {
    if c.zoneId == Some(zoneId) then Weight(c) else 0
  }

  /** The summed weight of the containers with an id in [1, n) that are
      assigned to zone `zoneId`. Container ids come from an autoincrement
      column starting at 1, so with n the next id this covers every row. */
  function AssignedWeight(cs: map<int, Container>, zoneId: int, n: int): int
    decreases n
  {
    if n <= 1 then 0
    else AssignedWeight(cs, zoneId, n - 1) + (if n - 1 in cs then Contribution(cs[n - 1], zoneId) else 0)
  }

  /** Rows at or above `n` do not enter the sum below `n`. */
  lemma {:induction false} AssignedWeightFrame(cs: map<int, Container>, cs': map<int, Container>, zoneId: int, n: int)
    requires forall k :: 1 <= k < n ==> (k in cs <==> k in cs') && (k in cs ==> cs[k] == cs'[k])
    ensures AssignedWeight(cs, zoneId, n) == AssignedWeight(cs', zoneId, n)
    decreases n
  {
    if n > 1 {
      AssignedWeightFrame(cs, cs', zoneId, n - 1);
    }
  }

  /** Writing row `k` below `n` changes a zone's assigned weight by the
      difference of the two rows' contributions. */
  lemma {:induction false} AssignedWeightUpdate(cs: map<int, Container>, zoneId: int, n: int, k: int, c: Container)
    requires 1 <= k < n
    ensures AssignedWeight(cs[k := c], zoneId, n)
         == AssignedWeight(cs, zoneId, n) - (if k in cs then Contribution(cs[k], zoneId) else 0) + Contribution(c, zoneId)
    decreases n
  {
    if n - 1 == k {
      AssignedWeightFrame(cs, cs[k := c], zoneId, n - 1);
    } else {
      AssignedWeightUpdate(cs, zoneId, n - 1, k, c);
    }
  }

  /** With no negative weights, the assigned weight below `n` covers the
      contribution of every row below `n`. */
  lemma {:induction false} AssignedWeightCoversRow(cs: map<int, Container>, zoneId: int, n: int, k: int)
    requires forall j :: j in cs ==> 0 <= Weight(cs[j])
    requires 1 <= k < n && k in cs
    ensures Contribution(cs[k], zoneId) <= AssignedWeight(cs, zoneId, n)
    decreases n
  {
    AssignedWeightNonNegative(cs, zoneId, n - 1);
    if n - 1 != k {
      AssignedWeightCoversRow(cs, zoneId, n - 1, k);
    }
  }

  /** With no negative weights, no zone's assigned weight is negative. */
  lemma {:induction false} AssignedWeightNonNegative(cs: map<int, Container>, zoneId: int, n: int)
    requires forall j :: j in cs ==> 0 <= Weight(cs[j])
    ensures 0 <= AssignedWeight(cs, zoneId, n)
    decreases n
  {
    if n > 1 {
      AssignedWeightNonNegative(cs, zoneId, n - 1);
    }
  }

  /** A zone no container points at has nothing assigned to it. */
  lemma {:induction false} AssignedWeightUnreferenced(cs: map<int, Container>, zoneId: int, n: int)
    requires forall k :: k in cs ==> cs[k].zoneId != Some(zoneId)
    ensures AssignedWeight(cs, zoneId, n) == 0
    decreases n
  {
    if n > 1 {
      AssignedWeightUnreferenced(cs, zoneId, n - 1);
    }
  }

  /** The invariant of every committed store the service produces. */
  ghost predicate Valid(s: Store) {
    && 1 <= s.nextZoneId
    && 1 <= s.nextContainerId
    && (forall id :: id in s.zones ==>
          && 1 <= id < s.nextZoneId
          && WithinCapacity(s.zones[id])
          && s.zones[id].currentLoad == AssignedWeight(s.containers, id, s.nextContainerId))
    && (forall id :: id in s.containers ==>
          && 1 <= id < s.nextContainerId
          && 0 <= Weight(s.containers[id])
          && (s.containers[id].zoneId.Some? ==> s.containers[id].zoneId.value in s.zones))
  }

  lemma EmptyStoreIsValid()
    ensures Valid(EmptyStore)
  {
  }

  /** Assignment keeps the invariant. */
  lemma AssignKeepsValid(s: Store, zoneId: int, containerId: int)
    requires Valid(s)
    requires AssignContainerToZone(s, zoneId, containerId).Success?
    ensures Valid(AssignContainerToZone(s, zoneId, containerId).value.store)
  {
    var t := AssignContainerToZone(s, zoneId, containerId).value.store;
    var c := t.containers[containerId];
    forall id | id in t.zones
      ensures t.zones[id].currentLoad == AssignedWeight(t.containers, id, t.nextContainerId)
    {
      AssignedWeightUpdate(s.containers, id, s.nextContainerId, containerId, c);
    }
  }

  /** Shipping keeps the invariant. */
  lemma ShipKeepsValid(s: Store, containerId: int, newStatus: Option<string>)
    requires Valid(s)
    requires ShipContainer(s, containerId, newStatus).Success?
    ensures Valid(ShipContainer(s, containerId, newStatus).value.store)
  {
    var t := ShipContainer(s, containerId, newStatus).value.store;
    var c := t.containers[containerId];
    forall id | id in t.zones
      ensures t.zones[id].currentLoad == AssignedWeight(t.containers, id, t.nextContainerId)
    {
      AssignedWeightUpdate(s.containers, id, s.nextContainerId, containerId, c);
    }
  }

  /** Creating a container keeps the invariant as long as its weight is not negative. */
  lemma CreateKeepsValid(s: Store, data: NewContainer)
    requires Valid(s)
    requires 0 <= NewWeight(data)
    requires CreateContainerWithOptionalZone(s, data).Success?
    ensures Valid(CreateContainerWithOptionalZone(s, data).value.store)
  {
    var t := CreateContainerWithOptionalZone(s, data).value.store;
    var c := t.containers[s.nextContainerId];
    forall id | id in t.zones
      ensures t.zones[id].currentLoad == AssignedWeight(t.containers, id, t.nextContainerId)
    {
      AssignedWeightFrame(s.containers, t.containers, id, s.nextContainerId);
      assert AssignedWeight(t.containers, id, t.nextContainerId)
          == AssignedWeight(s.containers, id, s.nextContainerId) + Contribution(c, id);
    }
  }

  /** On a valid store the release predicate always holds, so shipping never
      reports the inconsistent-state error. */
  lemma ShipNeverInconsistent(s: Store, containerId: int, newStatus: Option<string>)
    requires Valid(s)
    ensures ShipContainer(s, containerId, newStatus) != Failure(ZoneInconsistent)
  {
    if containerId in s.containers && s.containers[containerId].zoneId.Some? {
      var c := s.containers[containerId];
      var id := c.zoneId.value;
      AssignedWeightCoversRow(s.containers, id, s.nextContainerId, containerId);
    }
  }
}

=== FILE: ledger.dfy ===
/** The capacity ledger: the two conditional updates that are the only way a
    zone's `currentLoad` changes. Each is one guarded UPDATE statement, so it
    either applies its delta to exactly one row or affects no row at all. */
module Ledger {
  import opened Wrappers
  import opened Schema

  /** The invariant every committed zone row must satisfy. */
  predicate WithinCapacity(z: Zone) {
    0 <= z.currentLoad <= z.capacity
  }

  /** `a` and `b` hold the same zones, with the same rows except possibly at `id`. */
  predicate SameZonesExcept(a: map<int, Zone>, b: map<int, Zone>, id: int) {
    a.Keys == b.Keys && forall k :: k in a && k != id ==> a[k] == b[k]
  }

  /** Whether the reservation guard holds: the zone exists and has `weight` free units. */
  predicate CanReserve(zones: map<int, Zone>, id: int, weight: int) {
    id in zones && zones[id].capacity - zones[id].currentLoad >= weight
  }

  /** Whether the release guard holds: the zone exists and holds at least `weight` units. */
  predicate CanRelease(zones: map<int, Zone>, id: int, weight: int) {
    id in zones && zones[id].currentLoad >= weight
  }

  /** Reserve `weight` units in zone `id`; None when no row matches (the zone
      is missing or too full). */
  function Reserve(zones: map<int, Zone>, id: int, weight: int): (r: Option<map<int, Zone>>)
    ensures r.Some? <==> CanReserve(zones, id, weight)
    ensures r.Some? ==> SameZonesExcept(zones, r.value, id)
    ensures r.Some? ==> r.value[id] == zones[id].(currentLoad := zones[id].currentLoad + weight)
    ensures r.Some? && 0 <= weight && WithinCapacity(zones[id]) ==> WithinCapacity(r.value[id])
  {
    if CanReserve(zones, id, weight) then
      Some(zones[id := zones[id].(currentLoad := zones[id].currentLoad + weight)])
    else
      None
  }

  /** Release `weight` units from zone `id`; None when no row matches. */
  function Release(zones: map<int, Zone>, id: int, weight: int): (r: Option<map<int, Zone>>)
    ensures r.Some? <==> CanRelease(zones, id, weight)
    ensures r.Some? ==> SameZonesExcept(zones, r.value, id)
    ensures r.Some? ==> r.value[id] == zones[id].(currentLoad := zones[id].currentLoad - weight)
    ensures r.Some? && 0 <= weight && WithinCapacity(zones[id]) ==> WithinCapacity(r.value[id])
  {
    if CanRelease(zones, id, weight) then
      Some(zones[id := zones[id].(currentLoad := zones[id].currentLoad - weight)])
    else
      None
  }

  /** A reservation followed by the release of the same weight restores every
      zone exactly, provided the load was not negative to begin with. */
  lemma ReserveReleaseRoundTrip(zones: map<int, Zone>, id: int, weight: int)
    requires CanReserve(zones, id, weight)
    requires 0 <= zones[id].currentLoad
    ensures Release(Reserve(zones, id, weight).value, id, weight) == Some(zones)
  {
    var reserved := Reserve(zones, id, weight).value;
    assert Release(reserved, id, weight).value == zones;
  }

  /** A release followed by a reservation of the same weight restores every
      zone exactly, provided the load was within capacity to begin with. */
  lemma ReleaseReserveRoundTrip(zones: map<int, Zone>, id: int, weight: int)
    requires CanRelease(zones, id, weight)
    requires zones[id].currentLoad <= zones[id].capacity
    ensures Reserve(Release(zones, id, weight).value, id, weight) == Some(zones)
  {
    var released := Release(zones, id, weight).value;
    assert Reserve(released, id, weight).value == zones;
  }

  /** The outcome of a series of reservations against one zone, in the order
      the store serialises them. */
  datatype Admission = Admission(zones: map<int, Zone>, admitted: seq<bool>)

  /** The weights of `ws` whose flag in `admitted` is set. */
  function AdmittedSum(ws: seq<int>, admitted: seq<bool>): int
    requires |admitted| == |ws|
  {
    if ws == [] then 0
    else AdmittedSum(ws[..|ws| - 1], admitted[..|ws| - 1]) + (if admitted[|ws| - 1] then ws[|ws| - 1] else 0)
  }

  /** Apply the reservations `ws` to zone `id` one after the other. */
  function ReserveAll(zones: map<int, Zone>, id: int, ws: seq<int>): (r: Admission)
    ensures |r.admitted| == |ws|
    ensures SameZonesExcept(zones, r.zones, id)
  {
    if ws == [] then Admission(zones, [])
    else
      var prefix := ReserveAll(zones, id, ws[..|ws| - 1]);
      match Reserve(prefix.zones, id, ws[|ws| - 1])
      case Some(zones') => Admission(zones', prefix.admitted + [true])
      case None => Admission(prefix.zones, prefix.admitted + [false])
  }

  /** No overcommit under serialised reservations: the admitted weights are
      exactly what the load grew by, the load never passes the capacity, and
      every refused request is still too large for what is left at the end. */
  lemma {:induction false} SerialisedReservationsNeverOvercommit(zones: map<int, Zone>, id: int, ws: seq<int>)
    requires id in zones && WithinCapacity(zones[id])
    requires forall i :: 0 <= i < |ws| ==> 0 <= ws[i]
    ensures var r := ReserveAll(zones, id, ws);
      && WithinCapacity(r.zones[id])
      && r.zones[id].currentLoad == zones[id].currentLoad + AdmittedSum(ws, r.admitted)
      && r.zones[id] == zones[id].(currentLoad := r.zones[id].currentLoad)
      && forall i :: 0 <= i < |ws| && !r.admitted[i] ==>
           r.zones[id].capacity - r.zones[id].currentLoad < ws[i]
  {
    if ws != [] {
      var n := |ws| - 1;
      var prefix := ReserveAll(zones, id, ws[..n]);
      SerialisedReservationsNeverOvercommit(zones, id, ws[..n]);
      var r := ReserveAll(zones, id, ws);
      assert ws[..|ws|][..n] == ws[..n];
      assert r.admitted[..n] == prefix.admitted;
      forall i | 0 <= i < |ws| && !r.admitted[i]
        ensures r.zones[id].capacity - r.zones[id].currentLoad < ws[i]
      {
        if i < n {
          assert !prefix.admitted[i];
          assert ws[..n][i] == ws[i];
        }
      }
    }
  }
}

=== FILE: pagination.dfy ===
/** Page arithmetic shared by the zone and container listings. */
module Pagination {
  import opened Wrappers

  const DefaultLimit: int := 20
  const MaxLimit: int := 100

  /** The requested page: the query value when it is at least 1, and 1 when it
      is missing, not a number, zero or negative (None stands for missing or
      not a number). */
  function ClampPage(q: Option<int>): (page: int)
    ensures 1 <= page
    ensures q.Some? && 1 <= q.value ==> page == q.value
    ensures q.None? || q.value < 1 ==> page == 1
  {
    if q.None? || q.value == 0 then 1
    else if q.value < 1 then 1
    else q.value
  }

  /** The page size: the query value clamped to 1..100, with the default 20
      when it is missing or not a number. A zero counts as missing, so it
      falls back to the default rather than being raised to 1. */
  function ClampLimit(q: Option<int>): (limit: int)
    ensures 1 <= limit <= MaxLimit
    ensures q.None? || q.value == 0 ==> limit == DefaultLimit
    ensures q.Some? && 1 <= q.value <= MaxLimit ==> limit == q.value
    ensures q.Some? && MaxLimit < q.value ==> limit == MaxLimit
    ensures q.Some? && q.value < 0 ==> limit == 1
  {
    var n := if q.None? || q.value == 0 then DefaultLimit else q.value;
    if n > MaxLimit then MaxLimit else if n < 1 then 1 else n
  }

  /** The ceiling of `total / limit`: the fewest pages of `limit` rows that hold `total` rows. */
  function PageCount(total: nat, limit: int): (pages: nat)
    requires 1 <= limit
    ensures total == 0 ==> pages == 0
    ensures 0 < total ==> (pages - 1) * limit < total <= pages * limit
  {
    (total + limit - 1) / limit
  }

  /** How many rows the pages before `page` hold. */
  function Skip(page: int, limit: int): (skip: nat)
    requires 1 <= page && 1 <= limit
    ensures skip == (page - 1) * limit
  {
    MulMonotone(0, page - 1, limit);
    (page - 1) * limit
  }

  /** The rows the store returns when asked to skip `skip` rows and take `take`. */
  function Window<T>(rows: seq<T>, skip: nat, take: nat): (r: seq<T>)
    ensures |r| <= take
    ensures skip < |rows| ==> |r| == if |rows| - skip < take then |rows| - skip else take
    ensures |rows| <= skip ==> r == []
    ensures forall i :: 0 <= i < |r| ==> skip + i < |rows| && r[i] == rows[skip + i]
  {
    if |rows| <= skip then []
    else if |rows| - skip < take then rows[skip..]
    else rows[skip..skip + take]
  }

  /** The `meta` block of a listing. */
  datatype Meta = Meta(page: int, limit: int, total: nat, pages: nat)

  /** A listing: its meta block and the rows of the requested page. */
  datatype Listing<T> = Listing(meta: Meta, data: seq<T>)

  /** One page of the matching rows, in the order the store returns them. */
  function ListPage<T>(matching: seq<T>, pageQuery: Option<int>, limitQuery: Option<int>): (r: Listing<T>)
    ensures 1 <= r.meta.page && 1 <= r.meta.limit <= MaxLimit
    ensures r.meta.page == ClampPage(pageQuery) && r.meta.limit == ClampLimit(limitQuery)
    ensures r.meta.total == |matching|
    ensures r.meta.total == 0 ==> r.meta.pages == 0
    ensures 0 < r.meta.total ==> (r.meta.pages - 1) * r.meta.limit < r.meta.total <= r.meta.pages * r.meta.limit
    ensures |r.data| <= r.meta.limit
    ensures r.data == Window(matching, Skip(r.meta.page, r.meta.limit), r.meta.limit)
  {
    var page := ClampPage(pageQuery);
    var limit := ClampLimit(limitQuery);
    Listing(Meta(page, limit, |matching|, PageCount(|matching|, limit)), Window(matching, Skip(page, limit), limit))
  }

  lemma MulMonotone(a: int, b: int, c: int)
    requires 0 <= a <= b && 0 <= c
    ensures a * c <= b * c
  {
  }

  /** The `pages` figure agrees with the data: a page in range is non-empty
      and a page past the last one comes back empty. */
  lemma {:induction false} PageNonEmptyIffInRange<T>(matching: seq<T>, pageQuery: Option<int>, limitQuery: Option<int>)
    ensures var r := ListPage(matching, pageQuery, limitQuery);
      |r.data| > 0 <==> r.meta.page <= r.meta.pages
  {
    var r := ListPage(matching, pageQuery, limitQuery);
    var page, limit, pages := r.meta.page, r.meta.limit, r.meta.pages;
    var skip := Skip(page, limit);
    if page <= pages {
      MulMonotone(page - 1, pages - 1, limit);
      assert skip < |matching|;
    } else {
      MulMonotone(pages, page - 1, limit);
      assert |matching| <= skip;
    }
  }
}

=== FILE: requests.dfy ===
/** How the controllers see request values once JavaScript's coercions are
    abstracted: a number either is an integer or is not, a string field is
    present and non-empty ("truthy") or not, a date either parses or not. */
module Requests {
  import opened Wrappers
  import opened Errors

  /** A numeric request value: an integer, or anything that is not one. */
  datatype Numeric = Integer(value: int) | NotInteger

  /** A request date: a parsed timestamp, or a string `new Date` rejects. */
  datatype DateInput = Timestamp(millis: int) | Unparsable

  /** A string field that is present and not the empty string. */
  predicate Truthy(field: Option<string>) {
    field.Some? && field.value != ""
  }

  /** `parseIntOrThrow`: the integer, or a 400 naming the field. */
  function ParseInt(v: Numeric, field: string): (r: Result<int, Error>)
    ensures r.Success? <==> v.Integer?
    ensures r.Success? ==> r.value == v.value
    ensures r.Failure? ==> r.error == NotAnInteger(field)
  {
    match v
    case Integer(n) => Success(n)
    case NotInteger => Failure(NotAnInteger(field))
  }
}

=== FILE: retry.dfy ===
/** The bounded retry wrapper around every zone-service transaction. The
    operation is re-run from scratch after a transient store fault; anything
    else it throws is rethrown at once. */
module Retry {
  import opened Errors

  /** What one call of the wrapped operation did: returned a value or threw. */
  datatype Attempt<T> = Returned(value: T) | Threw(error: Error)

  /** An attempt the wrapper is willing to repeat. */
  predicate Retryable<T>(a: Attempt<T>) {
    a.Threw? && IsTransient(a.error)
  }

  /** The retry budget every caller in the service uses. */
  const DefaultMaxRetries: nat := 3

  /** The backoff after the n-th failure is this many milliseconds times n. */
  const BackoffStepMs: nat := 50

  /** What the wrapper hands back: the final attempt, how many times the
      operation was called, and the backoff slept before each repeat. */
  datatype Run<T> = Run(outcome: Attempt<T>, calls: nat, delays: seq<nat>)

  /** The backoffs slept after failures `from + 1`, ..., `from + |d|`. */
  predicate BackoffsFrom(d: seq<nat>, from: nat) {
    forall i :: 0 <= i < |d| ==> d[i] == BackoffStepMs * (from + 1 + i)
  }

  /** The loop once `failed` attempts have thrown; `attempts[k]` is what the
      (k+1)-th call of the operation does. */
  function Continue<T>(attempts: seq<Attempt<T>>, maxRetries: nat, failed: nat): (r: Run<T>)
    requires failed <= maxRetries < |attempts|
    decreases maxRetries - failed
    ensures failed < r.calls <= maxRetries + 1
    ensures r.outcome == attempts[r.calls - 1]
    ensures forall i :: failed <= i < r.calls - 1 ==> Retryable(attempts[i])
    ensures Retryable(r.outcome) ==> r.calls == maxRetries + 1
    ensures |r.delays| == r.calls - 1 - failed && BackoffsFrom(r.delays, failed)
  {
    var a := attempts[failed];
    if a.Returned? then Run(a, failed + 1, [])
    else if !IsTransient(a.error) || failed + 1 > maxRetries then Run(a, failed + 1, [])
    else
      var rest := Continue(attempts, maxRetries, failed + 1);
      Run(rest.outcome, rest.calls, [BackoffStepMs * (failed + 1)] + rest.delays)
  }

  /** Run the operation until it returns, throws a non-transient error, or has
      failed `maxRetries + 1` times. `attempts` lists what each successive call
      would do and must cover every call the wrapper can make. */
  function WithRetries<T>(attempts: seq<Attempt<T>>, maxRetries: nat): (r: Run<T>)
    requires maxRetries < |attempts|
    ensures 1 <= r.calls <= maxRetries + 1
    ensures r.outcome == attempts[r.calls - 1]
    ensures forall i :: 0 <= i < r.calls - 1 ==> Retryable(attempts[i])
    ensures Retryable(r.outcome) ==> r.calls == maxRetries + 1
    ensures |r.delays| == r.calls - 1 && BackoffsFrom(r.delays, 0)
  {
    Continue(attempts, maxRetries, 0)
  }

  /** A first call that returns, or throws anything not transient, is the only call. */
  lemma SettledFirstAttemptIsFinal<T>(attempts: seq<Attempt<T>>, maxRetries: nat)
    requires maxRetries < |attempts|
    requires !Retryable(attempts[0])
    ensures WithRetries(attempts, maxRetries) == Run(attempts[0], 1, [])
  {
  }

  /** The number of calls is fixed by the attempts alone: one past the first
      attempt that is not retryable, capped at the budget. */
  lemma CallsStopAtFirstSettled<T>(attempts: seq<Attempt<T>>, maxRetries: nat, k: nat)
    requires maxRetries < |attempts|
    requires k <= maxRetries
    requires !Retryable(attempts[k])
    requires forall i :: 0 <= i < k ==> Retryable(attempts[i])
    ensures WithRetries(attempts, maxRetries).calls == k + 1
    ensures WithRetries(attempts, maxRetries).outcome == attempts[k]
  {
  }
}

=== FILE: schema.dfy ===
/** The persisted records: zones, containers and the enums the schema declares. */
module Schema {
  import opened Wrappers

  datatype ZoneType = Warehouse | Transit | StorageZone | OtherZone

  datatype ContainerType = Standard | Refrigerated | Hazardous | OtherContainer

  datatype ContainerStatus = Empty | Loaded | InTransit | Maintenance | OtherStatus

  /** The allowed zone type names, in the order the zone controller lists them. */
  const AllowedZoneTypes: seq<string> := ["WAREHOUSE", "TRANSIT", "STORAGE", "OTHER"]

  /** The allowed container type names. */
  const AllowedContainerTypes: seq<string> := ["STANDARD", "REFRIGERATED", "HAZARDOUS", "OTHER"]

  /** The allowed container status names. */
  const AllowedContainerStatuses: seq<string> := ["EMPTY", "LOADED", "IN_TRANSIT", "MAINTENANCE", "OTHER"]

  function ZoneTypeName(t: ZoneType): string {
    match t
    case Warehouse => "WAREHOUSE"
    case Transit => "TRANSIT"
    case StorageZone => "STORAGE"
    case OtherZone => "OTHER"
  }

  function ContainerTypeName(t: ContainerType): string {
    match t
    case Standard => "STANDARD"
    case Refrigerated => "REFRIGERATED"
    case Hazardous => "HAZARDOUS"
    case OtherContainer => "OTHER"
  }

  function StatusName(s: ContainerStatus): string {
    match s
    case Empty => "EMPTY"
    case Loaded => "LOADED"
    case InTransit => "IN_TRANSIT"
    case Maintenance => "MAINTENANCE"
    case OtherStatus => "OTHER"
  }

  /** The enum value spelled exactly `name`, as the store accepts it (case-sensitive). */
  function ZoneTypeNamed(name: string): (r: Option<ZoneType>)
    ensures r.Some? <==> name in AllowedZoneTypes
    ensures r.Some? ==> ZoneTypeName(r.value) == name
  {
    if name == "WAREHOUSE" then Some(Warehouse)
    else if name == "TRANSIT" then Some(Transit)
    else if name == "STORAGE" then Some(StorageZone)
    else if name == "OTHER" then Some(OtherZone)
    else None
  }

  function ContainerTypeNamed(name: string): (r: Option<ContainerType>)
    ensures r.Some? <==> name in AllowedContainerTypes
    ensures r.Some? ==> ContainerTypeName(r.value) == name
  {
    if name == "STANDARD" then Some(Standard)
    else if name == "REFRIGERATED" then Some(Refrigerated)
    else if name == "HAZARDOUS" then Some(Hazardous)
    else if name == "OTHER" then Some(OtherContainer)
    else None
  }

  function StatusNamed(name: string): (r: Option<ContainerStatus>)
    ensures r.Some? <==> name in AllowedContainerStatuses
    ensures r.Some? ==> StatusName(r.value) == name
  {
    if name == "EMPTY" then Some(Empty)
    else if name == "LOADED" then Some(Loaded)
    else if name == "IN_TRANSIT" then Some(InTransit)
    else if name == "MAINTENANCE" then Some(Maintenance)
    else if name == "OTHER" then Some(OtherStatus)
    else None
  }

  /** Every enum value's name decodes back to that value. */
  lemma EnumNamesRoundTrip(z: ZoneType, c: ContainerType, s: ContainerStatus)
    ensures ZoneTypeNamed(ZoneTypeName(z)) == Some(z)
    ensures ContainerTypeNamed(ContainerTypeName(c)) == Some(c)
    ensures StatusNamed(StatusName(s)) == Some(s)
  {
  }

  /** A zone row. `currentLoad` is the capacity reserved by its containers. */
  datatype Zone = Zone(name: string, capacity: int, currentLoad: int, kind: ZoneType)

  /** A container row. `zoneId` is null while the container is unassigned. */
  datatype Container = Container(
    number: string,
    kind: ContainerType,
    status: ContainerStatus,
    zoneId: Option<int>,
    arrival: Option<int>,
    load: Option<int>)

  /** The capacity units a container takes in its zone: its load, or 1 when none is set. */
  function Weight(c: Container): int {
    c.load.GetOr(1)
  }

  /** Both tables, keyed by id, and the next ids the autoincrement columns hand out. */
  datatype Store = Store(
    zones: map<int, Zone>,
    containers: map<int, Container>,
    nextZoneId: int,
    nextContainerId: int)

  /** The database before any row is inserted; ids start at 1. */
  const EmptyStore: Store := Store(map[], map[], 1, 1)
}

=== FILE: text.dfy ===
/** Upper-casing of request strings before they are compared with an enum list. */
module Text {

  /** Upper-case of one character; only the ASCII letters are mapped. */
  function UpperChar(c: char): (r: char)
    ensures 'a' <= c <= 'z' ==> 'A' <= r <= 'Z' && r as int == c as int - 32
    ensures !('a' <= c <= 'z') ==> r == c
  {
    if 'a' <= c <= 'z' then (c as int - 32) as char else c
  }

  predicate IsUpper(s: string) {
    forall i :: 0 <= i < |s| ==> !('a' <= s[i] <= 'z')
  }

  /** Upper-casing of a whole string, restricted to the ASCII letters. */
  function ToUpper(s: string): (r: string)
    ensures |r| == |s|
    ensures forall i :: 0 <= i < |s| ==> r[i] == UpperChar(s[i])
    ensures IsUpper(r)
    ensures IsUpper(s) ==> r == s
  {
    seq(|s|, i requires 0 <= i < |s| => UpperChar(s[i]))
  }

  /** Upper-casing twice is upper-casing once. */
  lemma ToUpperIdempotent(s: string)
    ensures ToUpper(ToUpper(s)) == ToUpper(s)
  {
  }
}

=== FILE: wrappers.dfy ===
/** Optional values and results, the two failure-carrying shapes the model uses. */
module Wrappers {

  /** A value that may be absent: JavaScript's `null` / `undefined`. */
  datatype Option<+T> = None | Some(value: T) {

    /** The value, or `default` when absent: JavaScript's `??`. */
    function GetOr(default: T): (r: T)
      ensures Some? ==> r == value
      ensures None? ==> r == default
    {
      match this
      case Some(v) => v
      case None => default
    }
  }

  /** The outcome of an operation that either commits a value or throws an error. */
  datatype Result<+R, +E> = Success(value: R) | Failure(error: E) {

    predicate IsFailure() {
      Failure?
    }

    function PropagateFailure<U>(): Result<U, E>
      requires Failure?
    {
      Failure(error)
    }

    function Extract(): R
      requires Success?
    {
      value
    }
  }
}

=== FILE: zone_controller.dfy ===
/** The zone controller: listing, creation and update validation, and the
    assign endpoint that hands over to the zone service. */
module ZoneController {
  import opened Wrappers
  import opened Errors
  import opened Schema
  import opened Text
  import opened Requests
  import opened Pagination
  import opened Ledger
  import opened ZoneService
  import opened Invariant

  /** A zone type as a request spells it, matched case-insensitively. */
  function ParseZoneType(raw: string): (r: Option<ZoneType>)
    ensures r.Some? <==> ToUpper(raw) in AllowedZoneTypes
    ensures forall t :: r == Some(t) <==> ToUpper(raw) == ZoneTypeName(t)
  {
    ZoneTypeNamed(ToUpper(raw))
  }

  /** Spelling does not matter: a name and its upper-case form parse alike. */
  lemma ZoneTypeIgnoresCase(raw: string)
    ensures ParseZoneType(ToUpper(raw)) == ParseZoneType(raw)
  {
    ToUpperIdempotent(raw);
  }

  /** The query of `GET /zones`. */
  datatype ListQuery = ListQuery(page: Option<int>, limit: Option<int>, kind: Option<string>)

  /** The zones of one type, in table order. */
  function OfKind(rows: seq<Zone>, kind: ZoneType): (r: seq<Zone>)
    ensures |r| <= |rows|
    ensures forall i :: 0 <= i < |r| ==> r[i] in rows && r[i].kind == kind
  {
    if rows == [] then []
    else (if rows[0].kind == kind then [rows[0]] else []) + OfKind(rows[1..], kind)
  }

  /** The filter keeps every zone of the type as often as it occurs in the
      table, and no other zone. */
  lemma {:induction false} OfKindCounts(rows: seq<Zone>, kind: ZoneType)
    ensures forall z :: multiset(OfKind(rows, kind))[z] == if z.kind == kind then multiset(rows)[z] else 0
  {
    if rows != [] {
      assert rows == [rows[0]] + rows[1..];
      OfKindCounts(rows[1..], kind);
    }
  }

  /** The filter keeps the table order: the filter of a concatenation is the
      concatenation of the filters. */
  lemma {:induction false} OfKindAppend(a: seq<Zone>, b: seq<Zone>, kind: ZoneType)
    ensures OfKind(a + b, kind) == OfKind(a, kind) + OfKind(b, kind)
  {
    if a == [] {
      assert a + b == b;
    } else {
      assert (a + b)[0] == a[0];
      assert (a + b)[1..] == a[1..] + b;
      OfKindAppend(a[1..], b, kind);
    }
  }

  /** One page of zones; `rows` is the zone table in ascending id order. A
      type filter is applied only when the query gives a non-empty one. */
  function List(rows: seq<Zone>, q: ListQuery): (r: Result<Listing<Zone>, Error>)
    ensures r.Failure? <==> Truthy(q.kind) && ParseZoneType(q.kind.value).None?
    ensures r.Failure? ==> r.error == InvalidZoneType
    ensures r.Success? && !Truthy(q.kind) ==> r.value == ListPage(rows, q.page, q.limit)
    ensures r.Success? && Truthy(q.kind) ==>
              && r.value == ListPage(OfKind(rows, ParseZoneType(q.kind.value).value), q.page, q.limit)
              && forall i :: 0 <= i < |r.value.data| ==> Some(r.value.data[i].kind) == ParseZoneType(q.kind.value)
  {
    if !Truthy(q.kind) then Success(ListPage(rows, q.page, q.limit))
    else
      match ParseZoneType(q.kind.value)
      case None => Failure(InvalidZoneType)
      case Some(kind) => Success(ListPage(OfKind(rows, kind), q.page, q.limit))
  }

  /** The body of `POST /zones`. */
  datatype CreateRequest = CreateRequest(name: Option<string>, capacity: Option<Numeric>, kind: Option<string>)

  /** A validated zone, ready to insert. */
  datatype NewZone = NewZone(name: string, capacity: nat, kind: ZoneType)

  /** Name, capacity and type are required; the capacity must be a
      non-negative integer and the type one of the allowed names. */
  function ValidateCreate(req: CreateRequest): (r: Result<NewZone, Error>)
    ensures r.Success? <==>
      && Truthy(req.name) && req.capacity.Some? && Truthy(req.kind)
      && req.capacity.value.Integer? && 0 <= req.capacity.value.value
      && ParseZoneType(req.kind.value).Some?
    ensures (!Truthy(req.name) || req.capacity.None? || !Truthy(req.kind))
      ==> r == Failure(Missing("name, capacity and type"))
    ensures (Truthy(req.name) && req.capacity.Some? && Truthy(req.kind)
             && !(req.capacity.value.Integer? && 0 <= req.capacity.value.value))
      ==> r == Failure(NotNonNegativeInteger("capacity"))
    ensures (Truthy(req.name) && req.capacity.Some? && Truthy(req.kind)
             && req.capacity.value.Integer? && 0 <= req.capacity.value.value
             && ParseZoneType(req.kind.value).None?)
      ==> r == Failure(InvalidZoneType)
    ensures r.Failure? ==> IsValidationError(r.error)
    ensures r.Success? ==>
              && r.value.name == req.name.value
              && r.value.capacity == req.capacity.value.value
              && Some(r.value.kind) == ParseZoneType(req.kind.value)
  {
    if !Truthy(req.name) || req.capacity.None? || !Truthy(req.kind) then Failure(Missing("name, capacity and type"))
    else if req.capacity.value.NotInteger? || req.capacity.value.value < 0 then Failure(NotNonNegativeInteger("capacity"))
    else
      match ParseZoneType(req.kind.value)
      case None => Failure(InvalidZoneType)
      case Some(kind) => Success(NewZone(req.name.value, req.capacity.value.value, kind))
  }

  predicate NameTaken(zones: map<int, Zone>, name: string) {
    exists k :: k in zones && zones[k].name == name
  }

  /** A committed zone insert: the store after it, the new id, the new row. */
  datatype ZoneCreated = ZoneCreated(store: Store, id: int, zone: Zone)

  /** `POST /zones`: validate, then insert the zone with no load. */
  function Create(s: Store, req: CreateRequest): (r: Result<ZoneCreated, Error>)
    ensures ValidateCreate(req).Failure? ==> r == Failure(ValidateCreate(req).error)
    ensures ValidateCreate(req).Success? ==> (r.Failure? <==> NameTaken(s.zones, req.name.value))
    ensures r.Failure? && ValidateCreate(req).Success? ==> r.error == Storage(UniqueViolation)
    ensures r.Success? ==>
              && r.value.zone == Zone(req.name.value, req.capacity.value.value, 0, ParseZoneType(req.kind.value).value)
              && r.value.zone.currentLoad == 0
              && WithinCapacity(r.value.zone)
              && r.value.id == s.nextZoneId
              && r.value.store.zones == s.zones[s.nextZoneId := r.value.zone]
              && r.value.store.containers == s.containers
              && r.value.store.nextZoneId == s.nextZoneId + 1
              && r.value.store.nextContainerId == s.nextContainerId
  {
    var draft :- ValidateCreate(req);
    if NameTaken(s.zones, draft.name) then Failure(Storage(UniqueViolation))
    else
      var zone := Zone(draft.name, draft.capacity, 0, draft.kind);
      var id := s.nextZoneId;
      Success(ZoneCreated(s.(zones := s.zones[id := zone], nextZoneId := id + 1), id, zone))
  }

  /** A new zone has nothing assigned to it, so the invariant survives its insert. */
  lemma CreateKeepsValid(s: Store, req: CreateRequest)
    requires Valid(s)
    requires Create(s, req).Success?
    ensures Valid(Create(s, req).value.store)
  {
    var t := Create(s, req).value.store;
    AssignedWeightUnreferenced(s.containers, s.nextZoneId, s.nextContainerId);
  }

  /** The body of `PATCH /zones/:id`, with the id from the path. `hasCurrentLoad`
      says whether the body names `current_load` at all. */
  datatype UpdateRequest = UpdateRequest(
    id: Numeric,
    hasCurrentLoad: bool,
    name: Option<string>,
    capacity: Option<Numeric>,
    kind: Option<string>)

  /** The fields an accepted update writes. */
  datatype ZonePatch = ZonePatch(id: int, name: Option<string>, capacity: Option<nat>, kind: Option<ZoneType>)

  /** The load can only move through the ledger: a body naming `current_load`
      is refused outright. A capacity must be a non-negative integer and a
      type one of the allowed names. */
  function ValidateUpdate(req: UpdateRequest): (r: Result<ZonePatch, Error>)
    ensures r.Success? <==>
      && req.id.Integer?
      && !req.hasCurrentLoad
      && (req.capacity.Some? ==> req.capacity.value.Integer? && 0 <= req.capacity.value.value)
      && (req.kind.Some? ==> ParseZoneType(req.kind.value).Some?)
    ensures req.id.NotInteger? ==> r == Failure(NotAnInteger("id"))
    ensures req.id.Integer? && req.hasCurrentLoad ==> r == Failure(LoadIsReadOnly)
    ensures (req.id.Integer? && !req.hasCurrentLoad && req.capacity.Some?
             && !(req.capacity.value.Integer? && 0 <= req.capacity.value.value))
      ==> r == Failure(NotNonNegativeInteger("capacity"))
    ensures (req.id.Integer? && !req.hasCurrentLoad
             && (req.capacity.Some? ==> req.capacity.value.Integer? && 0 <= req.capacity.value.value)
             && req.kind.Some? && ParseZoneType(req.kind.value).None?)
      ==> r == Failure(InvalidZoneType)
    ensures r.Failure? ==> IsValidationError(r.error)
    ensures r.Success? ==>
              && r.value.id == req.id.value
              && r.value.name == req.name
              && (r.value.capacity.Some? <==> req.capacity.Some?)
              && (req.capacity.Some? ==> r.value.capacity.value == req.capacity.value.value)
              && (r.value.kind.Some? <==> req.kind.Some?)
              && (req.kind.Some? ==> r.value.kind == ParseZoneType(req.kind.value))
  {
    var id :- ParseInt(req.id, "id");
    if req.hasCurrentLoad then Failure(LoadIsReadOnly)
    else if req.capacity.Some? && (req.capacity.value.NotInteger? || req.capacity.value.value < 0) then
      Failure(NotNonNegativeInteger("capacity"))
    else if req.kind.Some? && ParseZoneType(req.kind.value).None? then Failure(InvalidZoneType)
    else
      var capacity: Option<nat> := if req.capacity.Some? then Some(req.capacity.value.value) else None;
      var kind := if req.kind.Some? then ParseZoneType(req.kind.value) else None;
      Success(ZonePatch(id, req.name, capacity, kind))
  }

  /** `POST /zones/:zoneId/assign`: the zone id from the path, the container id from the body. */
  datatype AssignRequest = AssignRequest(zoneId: Numeric, containerId: Option<Numeric>)

  /** Both ids must be integers, and the container id must be present, before
      the service is called; the service call runs under the retry wrapper. */
  function AssignContainer(s: Store, req: AssignRequest, conflicts: seq<Option<Fault>>): (r: Result<Committed, Error>)
    ensures req.zoneId.NotInteger? ==> r == Failure(NotAnInteger("zoneId"))
    ensures req.zoneId.Integer? && req.containerId.None? ==> r == Failure(Missing("containerId"))
    ensures req.zoneId.Integer? && req.containerId == Some(NotInteger) ==> r == Failure(NotAnInteger("containerId"))
    ensures req.zoneId.Integer? && req.containerId.Some? && req.containerId.value.Integer? ==>
              r == Transact(AssignContainerToZone(s, req.zoneId.value, req.containerId.value.value), conflicts)
  {
    var zoneId :- ParseInt(req.zoneId, "zoneId");
    if req.containerId.None? then Failure(Missing("containerId"))
    else
      var containerId :- ParseInt(req.containerId.value, "containerId");
      Transact(AssignContainerToZone(s, zoneId, containerId), conflicts)
  }
}

=== FILE: zone_service.dfy ===
/** The zone service: the three workflows that move capacity, each one a
    serializable transaction built from ledger updates and container writes.
    A workflow either commits its whole effect or throws; on a throw the
    transaction rolls back, so the caller keeps the store it had. */
module ZoneService {
  import opened Wrappers
  import opened Errors
  import opened Schema
  import opened Ledger
  import Retry

  /** What a committed workflow returns, `{ zone, container }`, together with
      the store after the commit and the id of the container it wrote. */
  datatype Committed = Committed(store: Store, zone: Option<Zone>, containerId: int, container: Container)

  /** The store the caller sees after the workflow: the commit, or the old store. */
  function After(s: Store, r: Result<Committed, Error>): Store {
    if r.Success? then r.value.store else s
  }

  /** `a` and `b` hold the same containers, with the same rows except possibly at `id`. */
  predicate SameContainersExcept(a: map<int, Container>, b: map<int, Container>, id: int) {
    a.Keys == b.Keys && forall k :: k in a && k != id ==> a[k] == b[k]
  }

  /** Attach an unassigned container to a zone, reserving its weight there.
      Checks, in order: the container exists, it is not already in this zone,
      it is not in another zone (no implicit move), the zone has room. */
  function AssignContainerToZone(s: Store, zoneId: int, containerId: int): (r: Result<Committed, Error>)
    ensures containerId !in s.containers ==> r == Failure(ContainerNotFound)
    ensures (containerId in s.containers && s.containers[containerId].zoneId == Some(zoneId))
      ==> r == Failure(AlreadyInZone)
    ensures (containerId in s.containers && s.containers[containerId].zoneId.Some?
             && s.containers[containerId].zoneId != Some(zoneId))
      ==> r == Failure(AssignedElsewhere)
    ensures (containerId in s.containers && s.containers[containerId].zoneId.None?)
      ==> (r.Success? <==> CanReserve(s.zones, zoneId, Weight(s.containers[containerId])))
    ensures (containerId in s.containers && s.containers[containerId].zoneId.None?
             && !CanReserve(s.zones, zoneId, Weight(s.containers[containerId])))
      ==> r == Failure(ZoneOverloaded)
    ensures r.Failure? ==> r.error in {ContainerNotFound, AlreadyInZone, AssignedElsewhere, ZoneOverloaded}
    ensures r.Success? ==>
      var c := s.containers[containerId];
      var t := r.value.store;
      && c.zoneId.None?
      && SameZonesExcept(s.zones, t.zones, zoneId)
      && zoneId in t.zones
      && t.zones[zoneId].currentLoad == s.zones[zoneId].currentLoad + Weight(c)
      && t.zones[zoneId] == s.zones[zoneId].(currentLoad := t.zones[zoneId].currentLoad)
      && SameContainersExcept(s.containers, t.containers, containerId)
      && t.containers[containerId] == c.(zoneId := Some(zoneId), status := Loaded)
      && t.nextZoneId == s.nextZoneId && t.nextContainerId == s.nextContainerId
      && r.value.zone == Some(t.zones[zoneId])
      && r.value.containerId == containerId
      && r.value.container == t.containers[containerId]
  {
    if containerId !in s.containers then Failure(ContainerNotFound)
    else
      var c := s.containers[containerId];
      if c.zoneId == Some(zoneId) then Failure(AlreadyInZone)
      else if c.zoneId.Some? then Failure(AssignedElsewhere)
      else
        match Reserve(s.zones, zoneId, Weight(c))
        case None => Failure(ZoneOverloaded)
        case Some(zones) =>
          var attached := c.(zoneId := Some(zoneId), status := Loaded);
          var t := s.(zones := zones, containers := s.containers[containerId := attached]);
          Success(Committed(t, Some(zones[zoneId]), containerId, attached))
  }

  /** The fields `createContainerWithOptionalZone` receives. Type and status
      are names the store will check against its enums. */
  datatype NewContainer = NewContainer(
    number: string,
    kind: string,
    status: Option<string>,
    zoneId: Option<int>,
    arrival: Option<int>,
    load: Option<int>)

  /** The weight a new container takes: its load, or 1 when none is given. */
  function NewWeight(data: NewContainer): int {
    data.load.GetOr(1)
  }

  /** The status name stored when the request gives none. */
  function DefaultStatusName(inZone: bool): string {
    if inZone then "LOADED" else "EMPTY"
  }

  predicate NumberTaken(cs: map<int, Container>, number: string) {
    exists k :: k in cs && cs[k].number == number
  }

  /** The zone the new container names, if any, has room for its weight. */
  predicate Reservable(s: Store, data: NewContainer) {
    data.zoneId.None? || CanReserve(s.zones, data.zoneId.value, NewWeight(data))
  }

  /** The store knows the type name and the status name, given or defaulted. */
  predicate NamesDecode(data: NewContainer) {
    && ContainerTypeNamed(data.kind).Some?
    && StatusNamed(data.status.GetOr(DefaultStatusName(data.zoneId.Some?))).Some?
  }

  /** Insert a container, first reserving its weight when a zone is given.
      The reservation comes before the insert; if the insert is then refused
      by the store, the reservation is rolled back with it. */
  function CreateContainerWithOptionalZone(s: Store, data: NewContainer): (r: Result<Committed, Error>)
    ensures r.Success? <==> Reservable(s, data) && NamesDecode(data) && !NumberTaken(s.containers, data.number)
    ensures !Reservable(s, data) ==> r == Failure(ZoneOverloaded)
    ensures Reservable(s, data) && !NamesDecode(data) ==> r == Failure(Storage(InvalidEnumValue))
    ensures Reservable(s, data) && NamesDecode(data) && NumberTaken(s.containers, data.number)
      ==> r == Failure(Storage(UniqueViolation))
    ensures r.Failure? ==> r.error in {ZoneOverloaded, Storage(InvalidEnumValue), Storage(UniqueViolation)}
    ensures r.Success? ==>
      var t := r.value.store;
      var c := r.value.container;
      && r.value.containerId == s.nextContainerId
      && t.containers == s.containers[s.nextContainerId := c]
      && c.zoneId == data.zoneId
      && Weight(c) == NewWeight(data)
      && c.load == data.load
      && c.arrival == data.arrival
      && c.number == data.number && ContainerTypeName(c.kind) == data.kind
      && StatusName(c.status) == data.status.GetOr(DefaultStatusName(data.zoneId.Some?))
      && t.nextContainerId == s.nextContainerId + 1
      && t.nextZoneId == s.nextZoneId
      && !NumberTaken(s.containers, data.number)
      && (data.zoneId.None? ==> t.zones == s.zones && r.value.zone.None?)
      && (data.zoneId.Some? ==>
            var id := data.zoneId.value;
            && SameZonesExcept(s.zones, t.zones, id)
            && id in s.zones
            && t.zones[id] == s.zones[id].(currentLoad := s.zones[id].currentLoad + NewWeight(data))
            && r.value.zone == Some(t.zones[id]))
  {
    var weight := NewWeight(data);
    var reserved: Option<map<int, Zone>> :=
      if data.zoneId.Some? then Reserve(s.zones, data.zoneId.value, weight) else Some(s.zones);
    if reserved.None? then Failure(ZoneOverloaded)
    else
      var zones := reserved.value;
      var statusName := data.status.GetOr(DefaultStatusName(data.zoneId.Some?));
      match (ContainerTypeNamed(data.kind), StatusNamed(statusName))
      case (Some(kind), Some(status)) =>
        if NumberTaken(s.containers, data.number) then Failure(Storage(UniqueViolation))
        else
          var c := Container(data.number, kind, status, data.zoneId, data.arrival, data.load);
          var id := s.nextContainerId;
          var t := Store(zones, s.containers[id := c], s.nextZoneId, id + 1);
          var zone := if data.zoneId.Some? then Some(zones[data.zoneId.value]) else None;
          Success(Committed(t, zone, id, c))
      case _ => Failure(Storage(InvalidEnumValue))
  }

  /** The status a shipped container gets when the caller names none. */
  const DefaultShipStatus: string := "IN_TRANSIT"

  /** Detach an assigned container from its zone, releasing its weight there.
      A failed release means the zone's load no longer covers its containers.
      The new status is checked by the store only after the release, so an
      unknown status name rolls the release back. */
  function ShipContainer(s: Store, containerId: int, newStatus: Option<string>): (r: Result<Committed, Error>)
    ensures r.Success? <==>
      && containerId in s.containers
      && s.containers[containerId].zoneId.Some?
      && CanRelease(s.zones, s.containers[containerId].zoneId.value, Weight(s.containers[containerId]))
      && StatusNamed(newStatus.GetOr(DefaultShipStatus)).Some?
    ensures r == Failure(ContainerNotFound) <==> containerId !in s.containers
    ensures (containerId in s.containers && s.containers[containerId].zoneId.None?)
      ==> r == Failure(NotAssigned)
    ensures (containerId in s.containers && s.containers[containerId].zoneId.Some?
             && !CanRelease(s.zones, s.containers[containerId].zoneId.value, Weight(s.containers[containerId])))
      ==> r == Failure(ZoneInconsistent)
    ensures (containerId in s.containers && s.containers[containerId].zoneId.Some?
             && CanRelease(s.zones, s.containers[containerId].zoneId.value, Weight(s.containers[containerId]))
             && StatusNamed(newStatus.GetOr(DefaultShipStatus)).None?)
      ==> r == Failure(Storage(InvalidEnumValue))
    ensures r.Failure? ==> r.error in {ContainerNotFound, NotAssigned, ZoneInconsistent, Storage(InvalidEnumValue)}
    ensures r.Failure? && r.error == Storage(InvalidEnumValue) ==> StatusNamed(newStatus.GetOr(DefaultShipStatus)).None?
    ensures r.Success? ==>
      var c := s.containers[containerId];
      var t := r.value.store;
      && c.zoneId.Some?
      && var id := c.zoneId.value;
      && SameZonesExcept(s.zones, t.zones, id)
      && id in t.zones
      && t.zones[id] == s.zones[id].(currentLoad := s.zones[id].currentLoad - Weight(c))
      && SameContainersExcept(s.containers, t.containers, containerId)
      && t.containers[containerId].zoneId.None?
      && StatusName(t.containers[containerId].status) == newStatus.GetOr(DefaultShipStatus)
      && t.containers[containerId] == c.(zoneId := None, status := t.containers[containerId].status)
      && t.nextZoneId == s.nextZoneId && t.nextContainerId == s.nextContainerId
      && r.value.zone == Some(t.zones[id])
      && r.value.containerId == containerId
      && r.value.container == t.containers[containerId]
  {
    if containerId !in s.containers then Failure(ContainerNotFound)
    else
      var c := s.containers[containerId];
      if c.zoneId.None? then Failure(NotAssigned)
      else
        var id := c.zoneId.value;
        match Release(s.zones, id, Weight(c))
        case None => Failure(ZoneInconsistent)
        case Some(zones) =>
          match StatusNamed(newStatus.GetOr(DefaultShipStatus))
          case None => Failure(Storage(InvalidEnumValue))
          case Some(status) =>
            var shipped := c.(zoneId := None, status := status);
            var t := s.(zones := zones, containers := s.containers[containerId := shipped]);
            Success(Committed(t, Some(zones[id]), containerId, shipped))
  }

  /** Assigning a container and then shipping it returns every zone to its
      starting load and leaves the container unassigned with the ship status. */
  lemma AssignThenShipRestoresZones(s: Store, zoneId: int, containerId: int, newStatus: Option<string>)
    requires AssignContainerToZone(s, zoneId, containerId).Success?
    requires 0 <= s.zones[zoneId].currentLoad
    requires StatusNamed(newStatus.GetOr(DefaultShipStatus)).Some?
    ensures var s1 := AssignContainerToZone(s, zoneId, containerId).value.store;
      var r := ShipContainer(s1, containerId, newStatus);
      && r.Success?
      && r.value.store.zones == s.zones
      && r.value.store.containers[containerId].zoneId.None?
      && r.value.store.containers[containerId].status == StatusNamed(newStatus.GetOr(DefaultShipStatus)).value
  {
  }

  // ---- retries around a transaction ----

  /** What the successive calls of a transaction do when the store aborts the
      calls listed in `conflicts` and lets every other call run the workflow,
      whose result on the (unchanged) store is `run`. */
  function Attempts(run: Result<Committed, Error>, conflicts: seq<Option<Fault>>): (a: seq<Retry.Attempt<Committed>>)
    ensures |a| == Retry.DefaultMaxRetries + 1
  {
    seq(Retry.DefaultMaxRetries + 1, i requires 0 <= i < Retry.DefaultMaxRetries + 1 =>
      if i < |conflicts| && conflicts[i].Some? then Retry.Threw(Storage(conflicts[i].value))
      else if run.Success? then Retry.Returned(run.value)
      else Retry.Threw(run.error))
  }

  /** The transaction `run` wrapped in `withRetries` with the default budget. */
  function Transact(run: Result<Committed, Error>, conflicts: seq<Option<Fault>>): Result<Committed, Error> {
    match Retry.WithRetries(Attempts(run, conflicts), Retry.DefaultMaxRetries).outcome
    case Returned(v) => Success(v)
    case Threw(e) => Failure(e)
  }

  /** Retry transparency: a retried transaction commits exactly what one
      uninterrupted run commits, or throws a store fault with nothing
      committed; and when at most the budget's worth of calls hit transient
      conflicts, the caller sees exactly the uninterrupted result. */
  lemma RetryIsTransparent(run: Result<Committed, Error>, conflicts: seq<Option<Fault>>)
    requires run.Failure? ==> !IsTransient(run.error)
    ensures var r := Transact(run, conflicts);
      && (r.Success? ==> r == run)
      && (r.Failure? ==> r == run || exists i :: 0 <= i < |conflicts| && conflicts[i] == Some(r.error.fault))
    ensures (|conflicts| <= Retry.DefaultMaxRetries
             && forall i :: 0 <= i < |conflicts| && conflicts[i].Some? ==> IsTransientFault(conflicts[i].value))
      ==> Transact(run, conflicts) == run
    ensures ((forall i :: 0 <= i < |conflicts| && conflicts[i].Some? ==> IsTransientFault(conflicts[i].value))
             && exists k :: 0 <= k <= Retry.DefaultMaxRetries && (k >= |conflicts| || conflicts[k].None?))
      ==> Transact(run, conflicts) == run
  {
  }
}
